=== FILE: README.md ===
# Retrieval chat CLI and contacts directory service: a Dafny model

This project models the core of a command-line retrieval-augmented chat tool and of the small
contacts directory service it queries.

- **Contacts service.** An in-memory list of contact records starts as a copy of three seed
  records. It supports create, find-all, find-one, update (merge a partial record) and remove.
  A lookup by an id no record carries fails with a `Contact #<id> not found` error.
- **Chat commands.** There are five: `docs`, `typeorm`, `pdf`, `contacts` and `youtube`.
  - Each command first makes sure its vector table holds documents. It clears, checks,
    ingests or rebuilds the table according to its own rule.
  - It then runs a question loop until an exit keyword (`done`, `goodbye`, `bye`, `exit`,
    any letter case). An empty line answers the prompt's default, `done`.
  - Each question retrieves documents by the question text, fills a prompt template and asks
    the model once. Some commands recompute a chat-history string every turn.
- **Cloud application card list.** The page script drops cards that lack a title, description
  or link after trimming. It renders the rest as labelled text blocks. Each start of the tool
  appends the result to its table.

The hosted model, the retriever, the text splitter, the document loaders, `serializeDocs` and
`formatChatHistory` are not part of this model. They are function-valued parameters
(`ChatChain.Backend`, the loader arguments of each `Run`), and nothing is assumed about them.
The table is a sequence of documents. `VectorTable.Apply` replays the writes a command performs
(`Cleared`, `Added`, `Rebuilt`). Every `Run`, `RunWith` and `Chat` states its table effect as a list
of operations and proves that the rows it then queries are exactly what those operations leave.

Files, one module each:

- `optional.dfy`: `Option`.
- `decimal.dfy`: integer printing and its inverse, for the not-found message.
- `contact_dto.dfy`: records and the partial-record merge.
- `contact_seed.dfy`: the seed data.
- `contacts_service.dfy`: the service.
- `exit_keyword.dfy`: the exit test and prompt defaults.
- `vector_table.dfy`: the table.
- `prompt_template.dfy`: slot filling.
- `chat_chain.dfy`: one chain call and the question loop.
- `docs_command.dfy`, `typeorm_command.dfy`, `pdf_command.dfy`, `contacts_command.dfy`,
  `youtube_command.dfy`: the five commands.
- `cloud_application_list.dfy`: the card list.

No command catches an error raised by `invoke` (for example `src/typeorm.ts:128`), so such
an error ends the command. The model has this as the
`Crashed` stop (`ChatChain.Loop`, `ChatChain.FailureEscapesLoop`).

## Model

| member | source | states |
|---|---|---|
| Decimal.IntToString | contacts-api/src/contacts/contacts.service.ts:24 | every id prints in canonical form: a minus sign exactly for negative ids, then digits with no leading zero (so never `-0`), as a template literal prints a safe integer |
| Decimal.NatRoundTrip | contacts-api/src/contacts/contacts.service.ts:24 | reading back the decimal digits printed for a non-negative id gives the id |
| Decimal.IntRoundTrip | contacts-api/src/contacts/contacts.service.ts:24 | the printed form of any integer id (minus sign for negatives) reads back as that id |
| Decimal.IntToStringInjective | contacts-api/src/contacts/contacts.service.ts:24 | distinct ids print differently |
| ContactDto.Merge | contacts-api/src/contacts/contacts.service.ts:32 | the object spread takes each property from the patch when present and from the stored record otherwise |
| ContactDto.MergeEmpty | contacts-api/src/contacts/dto/contact.dto.ts:19 | an update body with no properties (every property of the update record is optional) leaves the record unchanged |
| ContactDto.MergeFull | contacts-api/src/contacts/contacts.service.ts:32 | a patch carrying every property replaces the record entirely, id included |
| ContactDto.MergeIdempotent | contacts-api/src/contacts/contacts.service.ts:32 | merging the same patch twice equals merging it once |
| ContactDto.MergeJobOnly | contacts-api/src/contacts/contacts.service.ts:32 | a job-only patch changes the job and nothing else |
| ContactSeed.SeedIds | contacts-api/src/contacts/data.ts:1-67 | the seed holds three records with ids 1, 2, 3 in that order, pairwise distinct |
| ContactSeed.SeedJobs | contacts-api/src/contacts/data.ts:1-67 | exactly the id-1 record (John Smith) is an accountant; ids 2 and 3 are account executives |
| ContactSeed.SeedShape | contacts-api/src/contacts/data.ts:1-67 | every seed record has three interests and two or three children, each child with three interests |
| ContactSeed.SeedSharedSpouse | contacts-api/src/contacts/data.ts:1-67 | two different records (ids 1 and 3) share the spouse name Mary |
| ContactsService.NotFoundMessage | contacts-api/src/contacts/contacts.service.ts:24 | the 404 text is `Contact #`, the canonical printed id, then ` not found`, and the id reads back from the middle |
| ContactsService.Initial | contacts-api/src/contacts/contacts.service.ts:7 | a fresh service holds exactly the seed list, in its order: three records with ids 1, 2 and 3, no two alike |
| ContactsService.FirstIndex | contacts-api/src/contacts/contacts.service.ts:22 | `find` returns the position of the first record with the id, or nothing exactly when no record has it |
| ContactsService.Create | contacts-api/src/contacts/contacts.service.ts:9-13 | the record is returned as given and appended after every existing record, whose order is kept; no id check |
| ContactsService.FindAll | contacts-api/src/contacts/contacts.service.ts:15-18 | returns the whole list in order and changes nothing |
| ContactsService.FindOne | contacts-api/src/contacts/contacts.service.ts:20-27 | succeeds exactly when some record has the id, returning the first such record; otherwise NotFound with the templated message; the store never changes |
| ContactsService.ReplaceAll | contacts-api/src/contacts/contacts.service.ts:33-35 | every record carrying the id becomes the merged record, every other record stays, length kept |
| ContactsService.Without | contacts-api/src/contacts/contacts.service.ts:42-44 | keeps exactly the records whose id differs; the length drops by the number of records with the id |
| ContactsService.Update | contacts-api/src/contacts/contacts.service.ts:29-37 | unknown id: NotFound and store unchanged; known id: returns the first match merged with the patch and puts it in place of every record with that id |
| ContactsService.Remove | contacts-api/src/contacts/contacts.service.ts:39-47 | unknown id: NotFound and store unchanged; known id: returns true, drops every record with the id and keeps the rest in order |
| ContactsService.FirstIsUnique | contacts-api/src/contacts/contacts.service.ts:22 | the first match for an id is a single position |
| ContactsService.CountPositive | contacts-api/src/contacts/contacts.service.ts:41-44 | a present id is carried by at least one record, so a successful remove shortens the list |
| ContactsService.WithoutAppend | contacts-api/src/contacts/contacts.service.ts:42-44 | the remove filter keeps relative order: it distributes over concatenation |
| ContactsService.WithoutNothing | contacts-api/src/contacts/contacts.service.ts:42-44 | the filter returns the list unchanged when no record has the id |
| ContactsService.InitialLookups | contacts-api/src/contacts/contacts.service.ts:7 | on a fresh service exactly ids 1 to 3 are found, each as the seed record at that position |
| ContactsService.CreateDuplicateKeepsEarlier | contacts-api/src/contacts/contacts.service.ts:9-27 | creating a record under an id already present does not change what findOne returns for that id |
| ContactsService.CreateFreshIsFound | contacts-api/src/contacts/contacts.service.ts:9-27 | a record created under a fresh id is what findOne then returns |
| ContactsService.CreateThenRemoveRestores | contacts-api/src/contacts/contacts.service.ts:9-47 | create under a fresh id followed by remove of that id returns true and restores the earlier list |
| ContactsService.RemoveThenNotFound | contacts-api/src/contacts/contacts.service.ts:39-47 | after a successful remove, findOne and a second remove of the same id both fail |
| ContactsService.UpdateRewritesId | contacts-api/src/contacts/contacts.service.ts:29-37 | a patch carrying a different id moves the record: the old id is no longer found, the new one is |
| ContactsService.UpdateThenFindOne | contacts-api/src/contacts/contacts.service.ts:29-37 | when the patch keeps the id, findOne afterwards returns exactly what update returned |
| ContactsService.UpdateEmptyPatchUnique | contacts-api/src/contacts/contacts.service.ts:29-37 | with unique ids, an empty patch leaves the whole list unchanged |
| ContactsService.UpdateCollapsesDuplicates | contacts-api/src/contacts/contacts.service.ts:31-35 | for any list, id and pair of positions: when the first record with the id is at i and a later record at j has the same id, an empty patch returns the record at i and puts it at both i and j, overwriting the later duplicate |
| ContactsService.NotFoundMessagesDistinct | contacts-api/src/contacts/contacts.service.ts:24 | different ids give different not-found messages |
| ExitKeyword.ToLower | src/docs.ts:123 | lower-casing maps each character on its own, keeping the length |
| ExitKeyword.Answer | src/docs.ts:116-119 | a non-empty line is answered as typed, and the empty line is answered with the prompt's default |
| ExitKeyword.IsExit | src/docs.ts:123 | only a line as long as one of the keywords (three, four or seven characters) can pass the exit test |
| ExitKeyword.LowerMatchesSpelling | src/docs.ts:123 | a line lower-cases to a lower-case keyword exactly when it spells it letter by letter in either case |
| ExitKeyword.ExitIffSpellsKeyword | src/docs.ts:123 | a line exits exactly when it spells one of `done`, `goodbye`, `bye`, `exit` in any mix of cases |
| ExitKeyword.ExitIgnoresCase | src/typeorm.ts:114 | instances of ExitIffSpellsKeyword: the words `BYE`, `Done` and `eXiT` exit |
| ExitKeyword.ExitDoesNotTrim | src/typeorm.ts:114 | instances of ExitIffSpellsKeyword: ` bye` and `bye ` (a keyword with a blank around it) and `quit` do not exit |
| ExitKeyword.EmptyLineExits | src/typeorm.ts:107-114 | an empty line is not a keyword, but it answers the default `done`, which exits |
| VectorTable.DataExists | src/db.ts:44-54 | the existence check is true exactly when the table holds at least one row |
| VectorTable.Clear | src/db.ts:40-42 | after a clear the existence check is false |
| VectorTable.AddDocuments | src/docs.ts:78 | adding appends after the existing rows; the table then has data exactly when it had rows before or something was added |
| VectorTable.ClearThenAdd | src/pdf.ts:46-75 | clear followed by add leaves exactly the added documents, whatever was there before |
| VectorTable.AddTwiceDuplicates | src/tools/cloud-application-list.ts:56-57 | adding the same documents twice stores them twice |
| VectorTable.RebuildReplaces | src/youtube.ts:38-44 | an index built from documents keeps nothing of any earlier index |
| VectorTable.AddKeeps | src/tools/cloud-application-list.ts:56-57 | a single add keeps the earlier rows in front of the new ones |
| PromptTemplate.Render | src/typeorm.ts:69-84 | rendering succeeds exactly when every slot of the template has a value; a failure names a slot that has none |
| PromptTemplate.RenderText | src/typeorm.ts:69-84 | a literal piece of the template renders as itself |
| PromptTemplate.RenderSlot | src/typeorm.ts:69-84 | a `{name}` slot renders as the value supplied under `name`, and fails naming it when there is none |
| PromptTemplate.RenderMissingFirst | src/typeorm.ts:69-84 | a failure names the first slot with no value: every slot before it in the template has one |
| PromptTemplate.RenderIgnoresUnusedKey | src/docs.ts:96-99 | a value under a key the template does not use changes nothing in the rendering |
| PromptTemplate.SlotsAppend | src/typeorm.ts:69-83 | the slots of a concatenated template are the union of the parts' slots |
| PromptTemplate.RenderAppend | src/typeorm.ts:69-83 | when both parts render, their concatenation renders to the two texts one after the other |
| ChatChain.PromptValues | src/typeorm.ts:86-97 | the input map holds exactly the question key, `context` and (for commands with history) `chatHistory`, each with its value |
| ChatChain.NextHistory | src/typeorm.ts:112 | `docs` formats the history from (question, previous answer) (`src/docs.ts:121`), `typeorm`, `pdf` and `youtube` from (previous response, question); `contacts` keeps none, so the history is left as it was |
| ChatChain.Invoke | src/typeorm.ts:86-101 | one call: the context is the serialised retrieval for the question alone; the history is passed unchanged; the call fails with a missing slot exactly when the template uses a key the map lacks; when the prompt renders, the outcome is the model's reply to that prompt, or a model failure carrying its reason |
| ChatChain.Loop | src/typeorm.ts:103-128 | one call per line read until an exit or the end of input; each call's question is the line (or the default) and is not an exit; every call but a failing last one is answered; a failure ends the loop as a crash |
| ChatChain.ExitedAtExitLine | src/typeorm.ts:106-118 | an exit happens at an exit line, and the history is recomputed for that line before the loop ends |
| ChatChain.LoopTurns | src/typeorm.ts:106-128 | every call is one invoke of its question with the history computed from that question and the answer before it |
| ChatChain.FirstExit | src/typeorm.ts:106-118 | the index of the first exit line: every earlier line is a question and that line exits |
| ChatChain.InvokesUntilFirstExit | src/typeorm.ts:106-128 | with a chain that never raises, the number of calls is the number of lines before the first exit, and the loop ends at the exit or at the end of input |
| ChatChain.ExitFirstNeverInvokes | src/typeorm.ts:112-118 | an exit keyword as the first line ends the loop with no call |
| ChatChain.FailureEscapesLoop | src/typeorm.ts:128 | a failing first call ends the loop after that call, as a crash, however many lines remain |
| ChatChain.HistoryIgnoredWithoutSlot | src/docs.ts:96-99 | when the template has no `chatHistory` slot, any history function and any starting history give the same outcomes and ending |
| DocsCommand.Run | src/docs.ts:34-138 | verbose clears and then ingests; otherwise it ingests exactly when the table is empty and never clears; the rows queried are the chunks or the untouched table; the chat's calls, stop and history are those of the loop over those rows, so a chain failure ends the command |
| DocsCommand.PromptSlots | src/docs.ts:96-99 | the template reads `context` and `input`; `chatHistory` is supplied but never read |
| DocsCommand.VerboseAlwaysIngests | src/docs.ts:35-37 | verbose mode always ingests, because the table is emptied before the existence check |
| DocsCommand.ExitFirstNoCall | src/docs.ts:115-127 | an exit keyword as the first question ends the run with no call |
| DocsCommand.OneCallPerQuestion | src/docs.ts:115-138 | a chain that never raises is invoked once per question before the first exit, in input order |
| DocsCommand.HistoryFromQuestionAndLastAnswer | src/docs.ts:121 | each turn's history is formatted from (this question, previous answer), the first previous answer being empty |
| DocsCommand.HistoryRecomputedAtExit | src/docs.ts:121-126 | the history is recomputed for the exit line too |
| DocsCommand.HistoryHasNoEffect | src/docs.ts:96-99 | the history function cannot change any answer or the way the run ends |
| TypeormCommand.Run | src/typeorm.ts:30-128 | never clears; ingests exactly when the table is empty; the rows queried are the chunks or the untouched table; the chat's calls, stop and history are those of the loop over those rows |
| TypeormCommand.VerboseIgnored | src/typeorm.ts:21-65 | the verbose flag changes nothing the command does to the table or the chain |
| TypeormCommand.PromptSlotsMatchKeys | src/typeorm.ts:69-97 | the template's slots are exactly the keys the input map supplies |
| TypeormCommand.ExitFirstNoCall | src/typeorm.ts:106-118 | an exit keyword as the first question ends the run with no call |
| TypeormCommand.OneCallPerQuestion | src/typeorm.ts:106-128 | with a model that always answers, one call per question before the first exit, in order |
| TypeormCommand.HistoryFromLastAnswerAndQuestion | src/typeorm.ts:112 | each turn's history is formatted from (previous response, this question), the reverse of `docs` |
| PdfCommand.Run | src/pdf.ts:28-136 | an exit keyword or a missing file ends the command before any table write; otherwise the table is cleared if it has data and then holds only this file's chunks, and the chat's calls, stop and history are those of the loop over them |
| PdfCommand.IngestsOnceThisFileOnly | src/pdf.ts:44-75 | a run that passes the guards ingests once, last, this file's chunks, and clears exactly when the table had data |
| PdfCommand.PromptSlotsMatchKeys | src/pdf.ts:80-106 | the template's slots are exactly the keys the input map supplies |
| PdfCommand.ExitFirstNoCall | src/pdf.ts:115-127 | after the file name, an exit keyword as the first question ends the run with no call |
| PdfCommand.OneCallPerQuestion | src/pdf.ts:112-136 | with a model that always answers, one call per question after the file name and before the first exit |
| ContactsCommand.RunWith | src/contacts.ts:38-86 | a caught fetch failure ends the command with no table write; otherwise the table is cleared and then holds exactly the fetched documents |
| ContactsCommand.RunAsWritten | src/contacts.ts:58-105 | with the template as written, a failed fetch writes nothing and ends the command; otherwise the table is cleared and then holds the fetched contacts, the calls and stop are the loop's, and at most one call is made, and a call that is made fails for the missing `input` value and ends the command |
| ContactsCommand.Run | src/contacts.ts:58-105 | with `{question}` in place of `{input}`, a failed fetch writes nothing and ends the command; otherwise the table is cleared and then holds the fetched contacts, and the calls and stop are the loop's; and no call ever fails for a missing value: a call that raises raises a model failure |
| ContactsCommand.NoMissingSlot | src/contacts.ts:78-86 | with `{question}`, no call of a run raises a missing-value error |
| ContactsCommand.AsWrittenCrashesOnFirstQuestion | src/contacts.ts:58-105 | with the template as written, the first non-exit question ends the command with a missing `input` value after one call |
| ContactsCommand.AsWrittenSlotUnsupplied | src/contacts.ts:58-86 | the template as written reads one key, `input`, that the chain does not supply |
| ContactsCommand.PromptSlotsMatchKeys | src/contacts.ts:78-82 | with `{question}` in its place the slots are exactly the supplied keys `question` and `context` |
| ContactsCommand.OneCallPerQuestion | src/contacts.ts:90-105 | with the intended template and a model that always answers, one answered call per question before the first exit, the i-th call asking the i-th line (or the default) |
| ContactsCommand.NoHistoryInPrompt | src/contacts.ts:78-82 | every call hands the prompt the question and the contacts retrieved for it, and no history |
| YoutubeCommand.Chat | src/youtube.ts:61-107 | the index is built from the fetched documents alone; the first call is the summary question with an empty history; the question loop starts from the summary answer |
| YoutubeCommand.Run | src/youtube.ts:52-67 | the URL line is never compared with the exit keywords; the table is written exactly when the fetch succeeds; an uncaught fetch failure ends the command |
| YoutubeCommand.PromptSlotsMatchKeys | src/youtube.ts:69-96 | the template's slots are exactly the keys the input map supplies |
| YoutubeCommand.SummaryEvenWhenExitingAtOnce | src/youtube.ts:98-134 | an exit keyword as the first question still comes after the summary call |
| YoutubeCommand.FirstFollowUpSeesSummary | src/youtube.ts:105-128 | the first follow-up's history is formatted from the summary answer and that question |
| YoutubeCommand.OneCallPerQuestion | src/youtube.ts:98-143 | with a model that always answers: the summary, then one call per question before the first exit |
| CloudApplicationList.TrimStart | src/tools/cloud-application-list.ts:27 | drops exactly the leading white space (the ECMAScript set); what is left does not start with white space |
| CloudApplicationList.TrimEnd | src/tools/cloud-application-list.ts:27 | drops exactly the trailing white space; what is left does not end with white space |
| CloudApplicationList.Trim | src/tools/cloud-application-list.ts:27 | the result is the input's middle: what comes before it is exactly the leading white space, what comes after it is all white space, and it neither starts nor ends with white space |
| CloudApplicationList.TrimUntrimmed | src/tools/cloud-application-list.ts:27 | a string with no white space at either end is left as it is |
| CloudApplicationList.TrimIdempotent | src/tools/cloud-application-list.ts:27 | trimming twice is trimming once |
| CloudApplicationList.TrimEmptyIffBlank | src/tools/cloud-application-list.ts:26-37 | a field trims to the empty string exactly when it is all white space |
| CloudApplicationList.Scrape | src/tools/cloud-application-list.ts:26-34 | an absent element stays absent; a present element's text is trimmed |
| CloudApplicationList.Keep | src/tools/cloud-application-list.ts:37 | a card passes exactly when none of its three fields is `undefined` or the empty string, the falsy values of a string or `undefined` |
| CloudApplicationList.ToEntry | src/tools/cloud-application-list.ts:37-46 | the entry carries the kept card's own title, description and link, each non-empty |
| CloudApplicationList.KeepIff | src/tools/cloud-application-list.ts:26-37 | a card is kept exactly when its title, text and link elements are all present and hold more than white space |
| CloudApplicationList.ScrapeAll | src/tools/cloud-application-list.ts:24-36 | one object per card of the page, in page order, each field trimmed or absent |
| CloudApplicationList.Kept | src/tools/cloud-application-list.ts:37 | the filter never yields more entries than there are cards |
| CloudApplicationList.KeptComplete | src/tools/cloud-application-list.ts:37 | every card that passes the filter appears among the entries |
| CloudApplicationList.KeptFromCards | src/tools/cloud-application-list.ts:37 | every entry comes from a card on the page that passed the filter |
| CloudApplicationList.NoneKept | src/tools/cloud-application-list.ts:37 | when no card passes the filter, no entry is left |
| CloudApplicationList.KeptAppend | src/tools/cloud-application-list.ts:37 | the filter keeps page order: it distributes over concatenation |
| CloudApplicationList.RenderEntry | src/tools/cloud-application-list.ts:38-46 | each entry starts with `Title: ` and ends with a line feed, the 16-dash rule and a blank line |
| CloudApplicationList.Join | src/tools/cloud-application-list.ts:47 | the joined text is empty exactly when there is no entry |
| CloudApplicationList.JoinAppend | src/tools/cloud-application-list.ts:47 | joining with no separator distributes over concatenation |
| CloudApplicationList.SerializeAppend | src/tools/cloud-application-list.ts:37-47 | the text for two parts of a page is the first part's text followed by the second's |
| CloudApplicationList.Serialize | src/tools/cloud-application-list.ts:24-47 | the page text is empty exactly when no card of the page passes the filter |
| CloudApplicationList.SplitLineAt | src/tools/cloud-application-list.ts:40-45 | reading a line back stops at the line feed written after it |
| CloudApplicationList.ParseEntryRender | src/tools/cloud-application-list.ts:38-46 | one rendered card reads back as the same title, description and URL, leaving what follows it |
| CloudApplicationList.ParseJoin | src/tools/cloud-application-list.ts:38-47 | a rendered list reads back as the same entries when no field holds a line feed |
| CloudApplicationList.ParseSerialize | src/tools/cloud-application-list.ts:26-47 | when no kept field holds a line feed, the serialised page reads back as exactly its kept, trimmed cards in page order |
| CloudApplicationList.Ingest | src/tools/cloud-application-list.ts:53-57 | the page becomes one document appended to the table, with no clear and no existence check |
| CloudApplicationList.IngestTwiceDuplicates | src/tools/cloud-application-list.ts:53-57 | each start of the tool appends the page again, so the same text accumulates |

## Left out

- The hosted model, embeddings and retrieval ranking are uninterpreted `Backend` functions. So
  are `serializeDocs` and `formatChatHistory`: `src/utils.ts` is not part of this model, and
  neither function is defined in the part of it that is visible.
- Text splitting and every document loader (web crawl, Gitbook, PDF, YouTube transcript,
  OpenAPI fetch, Puppeteer page) are parameters. Only the splitter settings are constants.
- ChatChain.Loop: the commands have no end-of-input exit; each question loop ends only on an
  exit keyword or an uncaught error. `InputClosed` marks where the finite list of modelled
  input lines runs out, so a run is cut off there. It is not a clean stop of the command:
  when standard input closes, the prompt itself rejects and nothing catches that.
- ChatChain.Invoke: retrieval (`getRelevantDocuments`) and `serializeDocs` are total
  functions of `Backend`. In the source retrieval can reject, and nothing catches that
  either; only a model failure (`BackendFailed`) or a missing slot raises in the model.
- VectorTable: every table operation (`getVectorStore`, `clearTable`, `dataExistsInTable`,
  `addDocuments`, building the in-memory index) always succeeds. In the source each of these
  can reject, and no command catches that, so such a run would end with an uncaught error.
- PdfCommand.Run: a loader that throws (an unreadable PDF) is not modelled, because the loader
  is a total parameter. Neither is a throwing loader in `docs` or `typeorm`.
- DocsCommand.Run: `createRetrievalChain` is modelled as retrieval by the `input` key followed
  by the prompt. Its `answer` field is the chain's answer, and the library's internals are not
  modelled.
- The SQL behind `clearTable` and `dataExistsInTable` (`src/db.ts`) is abstracted to "delete
  every row" and "row count is positive".
- The YouTube index being saved to disk is not modelled; it is I/O only.
- Logging, spinners, `boxen` boxes and console output are left out as I/O.
- The command-line wiring (`src/index.ts`) and the service bootstrap and timing interceptor
  (`contacts-api/src/main.ts`, `contacts-api/src/logging.interceptor.ts`) are left out as
  plumbing.
- The HTTP controller (`contacts-api/src/contacts/contacts.controller.ts`) is left out as thin
  routing. Its `+id` coercion can produce NaN or fractional ids; the model's ids are integers.
- ContactsService.FindOne: ids are unbounded integers compared exactly. In the source they are
  JavaScript numbers, exact only up to 2^53, so two ids beyond that which differ can compare
  equal there (`+"9007199254740993"` finds the record with id 9007199254740992) and be
  distinct in the model. The same holds for `Update` and `Remove`.
- Decimal.IntToString: prints plain decimal digits for every integer. From 1e21 on a template
  literal prints exponent notation (`Contact #1e+21 not found`), so the not-found message
  agrees with the source only below that bound.
- ContactDto.Merge: a JSON body can carry `null` values or keys outside the record type, and
  the spread would copy them. The model's patch carries only the record's own properties,
  each present or absent.
- ContactsService.FindAll: the source returns the live array, so a caller could mutate the
  store through it. The model returns a value.
- The agent executor (`src/agents/cloud-agent.ts`) and the options scraper
  (`src/tools/cloud-application-options.ts`) are left out as foreign calls. So are the
  question-answering chain and tool wrapper around the card list.
- CloudApplicationList.Ingest: the page loader is assumed to return one document whose
  source is the page URL. The DOM reading (`innerText`, resolved `href`) is a parameter:
  each card's raw field text.
- ExitKeyword.ToLower: only ASCII letters are lowered; Unicode case mapping is not modelled.
- Concurrent HTTP requests against the shared contact list are not modelled; the model is
  sequential.
- Each `Run` models one run of a command. The module-level `chatHistory` variable outlives a
  run, but each command recomputes it before every use.

## Findings

| source | as written | input that shows it | evidently intended | confidence | as-written member | corrected member |
|---|---|---|---|---|---|---|
| src/contacts.ts:60 | the template reads `{input}`, but the chain's input map supplies only `context` and `question` (`src/contacts.ts:78-82`) | any first question that is not an exit keyword, e.g. `Who is an accountant?` | the prompt reads `{question}`, and each question is answered from the retrieved contacts | medium, not executed | ContactsCommand.RunAsWritten, ContactsCommand.AsWrittenCrashesOnFirstQuestion | ContactsCommand.Run, ContactsCommand.OneCallPerQuestion |

`ContactsCommand.RunAsWritten` runs the source's template. `ContactsCommand.Run` runs the
corrected one.

=== FILE: chat_chain.dfy ===
/**
 * The question loop every chat command runs, and one turn of it: retrieve documents for the
 * question, fill the prompt, ask the model. The retriever, `serializeDocs`, the hosted model,
 * `formatChatHistory` and the text splitter are not part of this model: they are the
 * function-valued fields of `Backend`, about which nothing is assumed.
 */
module ChatChain {
  import opened VectorTable
  import opened PromptTemplate
  import opened ExitKeyword

  /** What the hosted model does with a rendered prompt. */
  datatype LlmReply = Completed(text: string) | Unavailable(reason: string)

  datatype Backend = Backend(
    retrieve: (seq<Doc>, string) -> seq<Doc>,
    serializeDocs: seq<Doc> -> string,
    llm: string -> LlmReply,
    formatChatHistory: (string, string) -> string,
    split: (SplitterConfig, seq<Doc>) -> seq<Doc>)

  /**
   * How a command computes `chatHistory` each turn: not at all, from (question, previous
   * answer), or from (previous response, question).
   */
  datatype HistoryOrder = NoHistory | QuestionThenAnswer | AnswerThenQuestion

  /** What differs between the commands' chains: the key the question goes under, the history, the template. */
  datatype Wiring = Wiring(questionKey: string, history: HistoryOrder, template: Template)

  /** A failure raised by `invoke`: an unfilled template slot or an unreachable model. */
  datatype ChainError = MissingSlot(name: string) | BackendFailed(reason: string)

  datatype Outcome = Answered(text: string) | Raised(error: ChainError)

  /** One `invoke` of the chain: its question, the history computed for it, the prompt values, the outcome. */
  datatype Call = Call(question: string, history: string, values: map<string, string>, outcome: Outcome)

  /** Why a command run ended. */
  datatype Stop =
    | Exited                  // an exit keyword at the question prompt
    | InputClosed             // the modelled input ran out first: the run is cut off here, not ended by the command
    | Crashed(error: ChainError) // `invoke` raised, and nothing catches it
    | Declined                // an exit keyword at the file-name prompt
    | FileMissing(name: string)
    | FetchFailed(reason: string)   // a fetch failure the command catches and reports
    | LoaderCrashed(reason: string) // a loader failure nothing catches

  /** What a network loader yields: documents, or the reason it failed. */
  datatype Fetch = Fetched(docs: seq<Doc>) | FetchError(reason: string)

  datatype LoopResult = LoopResult(calls: seq<Call>, stop: Stop, last: string, history: string)

  /**
   * A whole command run: its table writes, the table after them, its chain calls, how it
   * ended, and the last value the command's `chatHistory` variable was given.
   */
  datatype Session = Session(setup: seq<TableOp>, rows: seq<Doc>, calls: seq<Call>, stop: Stop, history: string)

  /** The question's key is neither of the two keys every chain fills itself. */
  predicate Wired(w: Wiring) {
    w.questionKey != "context" && w.questionKey != "chatHistory"
  }

  /** The key set a chain hands its prompt: the question, the retrieved context, and the history if any. */
  function SuppliedKeys(w: Wiring): set<string> {
    {w.questionKey, "context"} + (if w.history.NoHistory? then {} else {"chatHistory"})
  }

  function PromptValues(w: Wiring, question: string, history: string, context: string): (v: map<string, string>)
    requires Wired(w)
    ensures v.Keys == SuppliedKeys(w)
    ensures v[w.questionKey] == question && v["context"] == context
    ensures !w.history.NoHistory? ==> v["chatHistory"] == history
  {
    var base := map["context" := context, w.questionKey := question];
    if w.history.NoHistory? then base else base["chatHistory" := history]
  }

  /** The `chatHistory` value of a turn, from the turn's question and the previous answer. */
  function NextHistory(order: HistoryOrder, format: (string, string) -> string,
                       question: string, lastAnswer: string, previous: string): (h: string)
    ensures order.NoHistory? ==> h == previous
    ensures order.QuestionThenAnswer? ==> h == format(question, lastAnswer)
    ensures order.AnswerThenQuestion? ==> h == format(lastAnswer, question)
  {
    match order
    case NoHistory => previous
    case QuestionThenAnswer => format(question, lastAnswer)
    case AnswerThenQuestion => format(lastAnswer, question)
  }

  /** One `invoke`: retrieval by the question alone, rendering, then the model. */
  function Invoke(w: Wiring, b: Backend, rows: seq<Doc>, question: string, history: string): (c: Call)
    requires Wired(w)
    ensures c.question == question && c.history == history
    ensures c.values.Keys == SuppliedKeys(w) && c.values[w.questionKey] == question
    ensures c.values["context"] == b.serializeDocs(b.retrieve(rows, question))
    ensures !w.history.NoHistory? ==> c.values["chatHistory"] == history
    ensures c.outcome.Raised? && c.outcome.error.MissingSlot? <==> !(Slots(w.template) <= SuppliedKeys(w))
    ensures Render(w.template, c.values).Rendered? ==>
      c.outcome == (match b.llm(Render(w.template, c.values).text)
                    case Completed(t) => Answered(t)
                    case Unavailable(reason) => Raised(BackendFailed(reason)))
  {
    var values := PromptValues(w, question, history, b.serializeDocs(b.retrieve(rows, question)));
    var outcome :=
      match Render(w.template, values)
      case Missing(n) => Raised(MissingSlot(n))
      case Rendered(prompt) =>
        match b.llm(prompt)
        case Completed(text) => Answered(text)
        case Unavailable(reason) => Raised(BackendFailed(reason));
    Call(question, history, values, outcome)
  }

  /**
   * The question loop. Each line is read (an empty line answers `done`), the history is
   * recomputed, and then an exit keyword ends the loop while anything else is sent to the
   * chain exactly once. A raised error ends the loop: nothing returns to the prompt.
   */
  function Loop(w: Wiring, b: Backend, rows: seq<Doc>, lines: seq<string>, last: string, history: string): (r: LoopResult)
    requires Wired(w)
    ensures |r.calls| <= |lines|
    ensures forall i :: 0 <= i < |r.calls| ==>
      r.calls[i].question == Answer(lines[i], DefaultAnswer) && !IsExit(r.calls[i].question)
    ensures forall i :: 0 <= i < |r.calls| - 1 ==> r.calls[i].outcome.Answered?
    ensures r.stop.Exited? || r.stop.InputClosed? || r.stop.Crashed?
    ensures !r.stop.Crashed? ==> forall i :: 0 <= i < |r.calls| ==> r.calls[i].outcome.Answered?
    ensures r.stop.Exited? ==> |r.calls| < |lines|
    ensures r.stop.InputClosed? ==> |r.calls| == |lines|
    ensures r.stop.Crashed? ==> |r.calls| > 0 && r.calls[|r.calls| - 1].outcome == Raised(r.stop.error)
    decreases |lines|
  {
    if |lines| == 0 then LoopResult([], InputClosed, last, history)
    else
      var q := Answer(lines[0], DefaultAnswer);
      var h := NextHistory(w.history, b.formatChatHistory, q, last, history);
      if IsExit(q) then LoopResult([], Exited, last, h)
      else
        var call := Invoke(w, b, rows, q, h);
        match call.outcome
        case Raised(e) => LoopResult([call], Crashed(e), last, h)
        case Answered(a) =>
          var rest := Loop(w, b, rows, lines[1..], a, h);
          var calls := [call] + rest.calls;
          LoopResult(calls, rest.stop, rest.last, rest.history)
  }

  /**
   * The loop ends `Exited` only at a line that exits, and the history is recomputed for that
   * line too, from the last answer, before the loop ends.
   */
  lemma {:induction false} ExitedAtExitLine(w: Wiring, b: Backend, rows: seq<Doc>, lines: seq<string>,
                                            last: string, history: string)
    requires Wired(w)
    ensures var r := Loop(w, b, rows, lines, last, history);
      r.stop.Exited? ==>
        && IsExit(Answer(lines[|r.calls|], DefaultAnswer))
        && r.history == NextHistory(w.history, b.formatChatHistory,
             Answer(lines[|r.calls|], DefaultAnswer),
             if |r.calls| == 0 then last else r.calls[|r.calls| - 1].outcome.text,
             if |r.calls| == 0 then history else r.calls[|r.calls| - 1].history)
    decreases |lines|
  {
    var r := Loop(w, b, rows, lines, last, history);
    if |lines| > 0 && r.stop.Exited? {
      var q := Answer(lines[0], DefaultAnswer);
      var h := NextHistory(w.history, b.formatChatHistory, q, last, history);
      if !IsExit(q) {
        var call := Invoke(w, b, rows, q, h);
        var rest := Loop(w, b, rows, lines[1..], call.outcome.text, h);
        ExitedAtExitLine(w, b, rows, lines[1..], call.outcome.text, h);
        assert r.calls == [call] + rest.calls;
        assert lines[|r.calls|] == lines[1..][|rest.calls|];
        if |rest.calls| > 0 {
          assert r.calls[|r.calls| - 1] == rest.calls[|rest.calls| - 1];
        }
      }
    }
  }

  /** The answer the turn at position `i` sees as "previous": the starting value for the first turn. */
  function AnswerBefore(calls: seq<Call>, i: nat, initial: string): string
    requires i <= |calls|
  {
    if i == 0 then initial
    else match calls[i - 1].outcome
      case Answered(text) => text
      case Raised(_) => ""
  }

  /** The history value the turn at position `i` starts from. */
  function HistoryBefore(calls: seq<Call>, i: nat, initial: string): string
    requires i <= |calls|
  {
    if i == 0 then initial else calls[i - 1].history
  }

  /** One turn of the loop, as the calls record it. */
  predicate IsTurn(w: Wiring, b: Backend, rows: seq<Doc>, calls: seq<Call>, i: nat, last: string, history: string)
    requires Wired(w) && i < |calls|
  {
    && calls[i] == Invoke(w, b, rows, calls[i].question, calls[i].history)
    && calls[i].history == NextHistory(w.history, b.formatChatHistory, calls[i].question,
         AnswerBefore(calls, i, last), HistoryBefore(calls, i, history))
  }

  lemma TurnShift(w: Wiring, b: Backend, rows: seq<Doc>, c: Call, cs: seq<Call>, i: nat, last: string, history: string)
    requires Wired(w) && 1 <= i <= |cs| && c.outcome.Answered?
    ensures IsTurn(w, b, rows, [c] + cs, i, last, history) <==> IsTurn(w, b, rows, cs, i - 1, c.outcome.text, c.history)
  {
    var all := [c] + cs;
    assert all[i] == cs[i - 1];
    assert all[i - 1] == if i == 1 then c else cs[i - 2];
  }

  /**
   * Turn by turn: each call is one `Invoke` of its question with the history computed from
   * that question and the answer before it (the loop's starting values for the first turn).
   */
  lemma {:induction false} LoopTurns(w: Wiring, b: Backend, rows: seq<Doc>, lines: seq<string>,
                                     last: string, history: string)
    requires Wired(w)
    ensures forall i :: 0 <= i < |Loop(w, b, rows, lines, last, history).calls| ==>
      IsTurn(w, b, rows, Loop(w, b, rows, lines, last, history).calls, i, last, history)
    decreases |lines|
  {
    var r := Loop(w, b, rows, lines, last, history);
    if |lines| > 0 && |r.calls| > 0 {
      var q := Answer(lines[0], DefaultAnswer);
      var h := NextHistory(w.history, b.formatChatHistory, q, last, history);
      var call := Invoke(w, b, rows, q, h);
      assert r.calls[0] == call;
      assert IsTurn(w, b, rows, r.calls, 0, last, history);
      if call.outcome.Answered? {
        var rest := Loop(w, b, rows, lines[1..], call.outcome.text, h);
        LoopTurns(w, b, rows, lines[1..], call.outcome.text, h);
        var all := [call] + rest.calls;
        assert call.history == h;
        forall i | 1 <= i < |all| ensures IsTurn(w, b, rows, all, i, last, history) {
          assert 0 <= i - 1 < |rest.calls|;
          assert IsTurn(w, b, rows, rest.calls, i - 1, call.outcome.text, h);
          TurnShift(w, b, rows, call, rest.calls, i, last, history);
        }
        assert r.calls == all;
      }
    }
  }

  /** Index of the first line that exits, or the number of lines when none does. */
  function FirstExit(lines: seq<string>): (k: nat)
    ensures k <= |lines|
    ensures forall i :: 0 <= i < k ==> !IsExit(Answer(lines[i], DefaultAnswer))
    ensures k < |lines| ==> IsExit(Answer(lines[k], DefaultAnswer))
    decreases |lines|
  {
    if |lines| == 0 then 0
    else if IsExit(Answer(lines[0], DefaultAnswer)) then 0
    else 1 + FirstExit(lines[1..])
  }

  /** A chain that never raises. */
  ghost predicate NeverRaises(w: Wiring, b: Backend) {
    && Slots(w.template) <= SuppliedKeys(w)
    && forall p :: b.llm(p).Completed?
  }

  /**
   * When the chain never raises, the loop invokes it once for each line before the first
   * exit keyword, in input order, and ends at that keyword (or when the input runs out).
   */
  lemma {:induction false} InvokesUntilFirstExit(w: Wiring, b: Backend, rows: seq<Doc>, lines: seq<string>,
                                                 last: string, history: string)
    requires Wired(w) && NeverRaises(w, b)
    ensures var r := Loop(w, b, rows, lines, last, history);
      && |r.calls| == FirstExit(lines)
      && (r.stop.Exited? <==> FirstExit(lines) < |lines|)
      && (r.stop.InputClosed? <==> FirstExit(lines) == |lines|)
    decreases |lines|
  {
    if |lines| > 0 {
      var q := Answer(lines[0], DefaultAnswer);
      if !IsExit(q) {
        var h := NextHistory(w.history, b.formatChatHistory, q, last, history);
        var call := Invoke(w, b, rows, q, h);
        assert !call.outcome.Raised? by {
          var values := PromptValues(w, q, h, b.serializeDocs(b.retrieve(rows, q)));
          assert Render(w.template, values).Rendered?;
          assert b.llm(Render(w.template, values).text).Completed?;
        }
        InvokesUntilFirstExit(w, b, rows, lines[1..], call.outcome.text, h);
      }
    }
  }

  /** A first line that exits ends the loop at once, with no call. */
  lemma ExitFirstNeverInvokes(w: Wiring, b: Backend, rows: seq<Doc>, lines: seq<string>, last: string, history: string)
    requires Wired(w)
    requires |lines| > 0 && IsExit(Answer(lines[0], DefaultAnswer))
    ensures Loop(w, b, rows, lines, last, history).calls == []
    ensures Loop(w, b, rows, lines, last, history).stop == Exited
  {
  }

  /** The model failing on the first question's prompt ends the loop after that one call. */
  lemma FailureEscapesLoop(w: Wiring, b: Backend, rows: seq<Doc>, lines: seq<string>, last: string, history: string)
    requires Wired(w)
    requires |lines| > 1 && !IsExit(Answer(lines[0], DefaultAnswer))
    requires Invoke(w, b, rows, Answer(lines[0], DefaultAnswer),
      NextHistory(w.history, b.formatChatHistory, Answer(lines[0], DefaultAnswer), last, history)).outcome.Raised?
    ensures |Loop(w, b, rows, lines, last, history).calls| == 1
    ensures Loop(w, b, rows, lines, last, history).stop.Crashed?
  {
  }

  function Outcomes(calls: seq<Call>): (os: seq<Outcome>)
    ensures |os| == |calls|
    ensures forall i :: 0 <= i < |calls| ==> os[i] == calls[i].outcome
    decreases |calls|
  {
    if |calls| == 0 then [] else [calls[0].outcome] + Outcomes(calls[1..])
  }

  /**
   * When the template has no `chatHistory` slot, the history is computed but ignored: any
   * history function and any starting history give the same outcomes and the same ending.
   */
  lemma {:induction false} HistoryIgnoredWithoutSlot(w: Wiring, b: Backend, format: (string, string) -> string,
                                                    rows: seq<Doc>, lines: seq<string>, last: string, h1: string, h2: string)
    requires Wired(w) && "chatHistory" !in Slots(w.template)
    ensures var r1 := Loop(w, b, rows, lines, last, h1);
            var r2 := Loop(w, b.(formatChatHistory := format), rows, lines, last, h2);
            Outcomes(r1.calls) == Outcomes(r2.calls) && r1.stop == r2.stop
    decreases |lines|
  {
    var b2 := b.(formatChatHistory := format);
    if |lines| > 0 {
      var q := Answer(lines[0], DefaultAnswer);
      if !IsExit(q) {
        var g1 := NextHistory(w.history, b.formatChatHistory, q, last, h1);
        var g2 := NextHistory(w.history, format, q, last, h2);
        var c1 := Invoke(w, b, rows, q, g1);
        var c2 := Invoke(w, b2, rows, q, g2);
        assert c1.outcome == c2.outcome by {
          var ctx := b.serializeDocs(b.retrieve(rows, q));
          var v1 := PromptValues(w, q, g1, ctx);
          var v2 := PromptValues(w, q, g2, ctx);
          if !w.history.NoHistory? {
            assert v2 == v1["chatHistory" := g2];
            RenderIgnoresUnusedKey(w.template, v1, "chatHistory", g2);
          }
        }
        if c1.outcome.Answered? {
          HistoryIgnoredWithoutSlot(w, b, format, rows, lines[1..], c1.outcome.text, g1, g2);
          var r1 := Loop(w, b, rows, lines, last, h1);
          var r2 := Loop(w, b2, rows, lines, last, h2);
          var s1 := Loop(w, b, rows, lines[1..], c1.outcome.text, g1);
          var s2 := Loop(w, b2, rows, lines[1..], c2.outcome.text, g2);
          assert r1.calls == [c1] + s1.calls;
          assert r2.calls == [c2] + s2.calls;
          assert ([c1] + s1.calls)[1..] == s1.calls;
          assert ([c2] + s2.calls)[1..] == s2.calls;
        }
      }
    }
  }
}

=== FILE: cloud_application_list.dfy ===
/**
 * The card list the "Cloud Application List" tool scrapes from the patterns page: each
 * `.card` element's title, description and link are read and trimmed, cards missing any of
 * the three are dropped, and the rest are rendered as one plain-text block. Each run appends
 * that block to the table as one more document.
 */
module CloudApplicationList {
  import opened Optional
  import opened VectorTable

  const PageUrl := "https://serverlessland.com/patterns?framework=CDK&language=TypeScript"

  const TableName := "cloud_application_options_data"

  /** The white space and line terminators `String.prototype.trim` removes (ECMAScript). */
  predicate IsSpace(c: char) {
    || c == '\t' || c == '\n' || c == '\U{B}' || c == '\U{C}' || c == '\r' || c == ' '
    || c == '\U{A0}' || c == '\U{1680}' || ('\U{2000}' <= c <= '\U{200A}')
    || c == '\U{2028}' || c == '\U{2029}' || c == '\U{202F}' || c == '\U{205F}' || c == '\U{3000}'
    || c == '\U{FEFF}'
  }

  predicate AllSpace(s: string) {
    forall i :: 0 <= i < |s| ==> IsSpace(s[i])
  }

  /** How many white-space characters the string starts with. */
  function LeadingSpace(s: string): (n: nat)
    ensures n <= |s|
    decreases |s|
  {
    if |s| > 0 && IsSpace(s[0]) then 1 + LeadingSpace(s[1..]) else 0
  }

  /** Drops leading white space: what is dropped is all white space, and what is left is a suffix that does not start with any. */
  function TrimStart(s: string): (r: string)
    ensures |r| <= |s| && r == s[|s| - |r|..]
    ensures |s| - |r| == LeadingSpace(s)
    ensures AllSpace(s[..|s| - |r|])
    ensures |r| > 0 ==> !IsSpace(r[0])
    decreases |s|
  {
    if |s| > 0 && IsSpace(s[0]) then TrimStart(s[1..]) else s
  }

  /** Drops trailing white space: what is dropped is all white space, and what is left is a prefix that does not end with any. */
  function TrimEnd(s: string): (r: string)
    ensures |r| <= |s| && r == s[..|r|]
    ensures AllSpace(s[|r|..])
    ensures |r| > 0 ==> !IsSpace(r[|r| - 1])
    decreases |s|
  {
    if |s| > 0 && IsSpace(s[|s| - 1]) then TrimEnd(s[..|s| - 1]) else s
  }

  /** `trim()`: what is left is the middle of the input, after its leading white space and before an all-white-space end. */
  function Trim(s: string): (r: string)
    ensures LeadingSpace(s) + |r| <= |s|
    ensures r == s[LeadingSpace(s)..LeadingSpace(s) + |r|]
    ensures AllSpace(s[..LeadingSpace(s)]) && AllSpace(s[LeadingSpace(s) + |r|..])
    ensures |r| > 0 ==> !IsSpace(r[0]) && !IsSpace(r[|r| - 1])
  {
    var t := TrimStart(s);
    var r := TrimEnd(t);
    SuffixPrefix(s, t, r);
    r
  }

  /** A prefix `r` of a suffix `t` of `s` is a slice of `s`, and what follows it in `t` follows it in `s`. */
  lemma SuffixPrefix(s: string, t: string, r: string)
    requires |r| <= |t| <= |s| && t == s[|s| - |t|..] && r == t[..|r|]
    ensures r == s[|s| - |t|..|s| - |t| + |r|]
    ensures s[|s| - |t| + |r|..] == t[|r|..]
    ensures |r| > 0 ==> r[0] == t[0]
  {
  }

  /** Trimming a string with no white space at either end leaves it as it is. */
  lemma TrimUntrimmed(s: string)
    requires |s| > 0 ==> !IsSpace(s[0]) && !IsSpace(s[|s| - 1])
    ensures Trim(s) == s
  {
  }

  lemma TrimIdempotent(s: string)
    ensures Trim(Trim(s)) == Trim(s)
  {
    TrimUntrimmed(Trim(s));
  }

  /** A string trims to nothing exactly when it is all white space. */
  lemma TrimEmptyIffBlank(s: string)
    ensures Trim(s) == "" <==> AllSpace(s)
  {
  }

  /**
   * One `.card` element as the page script finds it: the inner text of its title and text
   * elements and the `href` of its link, each `None` when the element is absent.
   */
  datatype RawCard = RawCard(title: Option<string>, description: Option<string>, href: Option<string>)

  /** The object the script builds from a card: each field trimmed, or absent. */
  datatype Card = Card(title: Option<string>, description: Option<string>, href: Option<string>)

  /** A card that survived the filter. */
  datatype Entry = Entry(title: string, description: string, href: string)

  /** `?.innerText.trim()`: absent stays absent, present is trimmed. */
  function Field(raw: Option<string>): Option<string> {
    match raw
    case None => None
    case Some(text) => Some(Trim(text))
  }

  /** One card's object: an absent element stays absent, a present one has its text trimmed. */
  function Scrape(c: RawCard): (r: Card)
    ensures (r.title.Some? <==> c.title.Some?) && (c.title.Some? ==> r.title.value == Trim(c.title.value))
    ensures (r.description.Some? <==> c.description.Some?) && (c.description.Some? ==> r.description.value == Trim(c.description.value))
    ensures (r.href.Some? <==> c.href.Some?) && (c.href.Some? ==> r.href.value == Trim(c.href.value))
  {
    Card(Field(c.title), Field(c.description), Field(c.href))
  }

  /** The `map` over the page's cards, in page order. */
  function ScrapeAll(cards: seq<RawCard>): (cs: seq<Card>)
    ensures |cs| == |cards|
    ensures forall i :: 0 <= i < |cards| ==> cs[i] == Scrape(cards[i])
  {
    seq(|cards|, i requires 0 <= i < |cards| => Scrape(cards[i]))
  }

  /** JavaScript truthiness of an optional string: present and non-empty. */
  predicate Truthy(v: Option<string>) {
    v.Some? && v.value != ""
  }

  /** The filter: all three fields truthy, that is, none of them is `undefined` or the empty string. */
  predicate Keep(c: Card)
    ensures Keep(c) <==>
      && c.title != None && c.title != Some("")
      && c.description != None && c.description != Some("")
      && c.href != None && c.href != Some("")
  {
    Truthy(c.title) && Truthy(c.description) && Truthy(c.href)
  }

  function ToEntry(c: Card): (e: Entry)
    requires Keep(c)
    ensures e.title == c.title.value && e.description == c.description.value && e.href == c.href.value
    ensures e.title != "" && e.description != "" && e.href != ""
  {
    Entry(c.title.value, c.description.value, c.href.value)
  }

  /** A card is kept exactly when each of its three elements is present and holds more than white space. */
  lemma KeepIff(c: RawCard)
    ensures Keep(Scrape(c)) <==>
      && c.title.Some? && !AllSpace(c.title.value)
      && c.description.Some? && !AllSpace(c.description.value)
      && c.href.Some? && !AllSpace(c.href.value)
  {
    if c.title.Some? { TrimEmptyIffBlank(c.title.value); }
    if c.description.Some? { TrimEmptyIffBlank(c.description.value); }
    if c.href.Some? { TrimEmptyIffBlank(c.href.value); }
  }

  /** The `filter` then the second `map`: the kept cards as entries, in page order. */
  function Kept(cs: seq<Card>): (es: seq<Entry>)
    ensures |es| <= |cs|
    decreases |cs|
  {
    if |cs| == 0 then []
    else if Keep(cs[0]) then [ToEntry(cs[0])] + Kept(cs[1..])
    else Kept(cs[1..])
  }

  /** Every entry is a card of the page that passed the filter. */
  lemma {:induction false} KeptFromCards(cs: seq<Card>, e: Entry)
    requires e in Kept(cs)
    ensures exists c :: c in cs && Keep(c) && e == ToEntry(c)
    decreases |cs|
  {
    if Keep(cs[0]) && e == ToEntry(cs[0]) {
      assert cs[0] in cs;
    } else {
      assert e in Kept(cs[1..]);
      KeptFromCards(cs[1..], e);
      var c :| c in cs[1..] && Keep(c) && e == ToEntry(c);
      assert c in cs;
    }
  }

  /** No card that passed the filter is missing from the entries. */
  lemma {:induction false} KeptComplete(cs: seq<Card>)
    ensures forall i :: 0 <= i < |cs| && Keep(cs[i]) ==> ToEntry(cs[i]) in Kept(cs)
    decreases |cs|
  {
    if |cs| > 0 {
      KeptComplete(cs[1..]);
      forall i | 0 <= i < |cs| && Keep(cs[i]) ensures ToEntry(cs[i]) in Kept(cs) {
        if i > 0 {
          assert cs[i] == cs[1..][i - 1];
        }
      }
    }
  }

  lemma {:induction false} KeptAppend(a: seq<Card>, b: seq<Card>)
    ensures Kept(a + b) == Kept(a) + Kept(b)
    decreases |a|
  {
    if |a| == 0 {
      assert a + b == b;
    } else {
      assert (a + b)[0] == a[0];
      assert (a + b)[1..] == a[1..] + b;
      KeptAppend(a[1..], b);
    }
  }

  const Rule := "----------------"

  /** One kept card as text: three labelled lines, a rule, and a blank line. */
  function RenderEntry(e: Entry): (r: string)
    ensures |r| > 26 && r[..7] == "Title: " && r[|r| - 19..] == "\n" + Rule + "\n\n"
  {
    "Title: " + e.title + "\nDescription: " + e.description + "\nURL: " + e.href + "\n" + Rule + "\n\n"
  }

  /** The entries' renderings joined with no separator. */
  function Join(es: seq<Entry>): (r: string)
    ensures r == "" <==> |es| == 0
    decreases |es|
  {
    if |es| == 0 then "" else RenderEntry(es[0]) + Join(es[1..])
  }

  lemma {:induction false} JoinAppend(a: seq<Entry>, b: seq<Entry>)
    ensures Join(a + b) == Join(a) + Join(b)
    decreases |a|
  {
    if |a| == 0 {
      assert a + b == b;
    } else {
      assert (a + b)[0] == a[0];
      assert (a + b)[1..] == a[1..] + b;
      JoinAppend(a[1..], b);
    }
  }

  /** No card of the page passes the filter. */
  predicate NothingPasses(cards: seq<RawCard>) {
    forall i :: 0 <= i < |cards| ==> !Keep(Scrape(cards[i]))
  }

  /** What the page script returns: every kept card, rendered, in page order; empty exactly when no card passes the filter. */
  function Serialize(cards: seq<RawCard>): (r: string)
    ensures r == "" <==> NothingPasses(cards)
  {
    var cs := ScrapeAll(cards);
    KeptComplete(cs);
    if forall i :: 0 <= i < |cs| ==> !Keep(cs[i]) then
      NoneKept(cs);
      Join(Kept(cs))
    else
      Join(Kept(cs))
  }

  lemma ScrapeAllAppend(a: seq<RawCard>, b: seq<RawCard>)
    ensures ScrapeAll(a + b) == ScrapeAll(a) + ScrapeAll(b)
  {
    var l, r := ScrapeAll(a + b), ScrapeAll(a) + ScrapeAll(b);
    forall i | 0 <= i < |a + b| ensures l[i] == r[i] {
      if i < |a| { assert (a + b)[i] == a[i]; } else { assert (a + b)[i] == b[i - |a|]; }
    }
  }

  /** Scraping two halves of a page gives the two halves' text, in order. */
  lemma SerializeAppend(a: seq<RawCard>, b: seq<RawCard>)
    ensures Serialize(a + b) == Serialize(a) + Serialize(b)
  {
    var sa, sb := ScrapeAll(a), ScrapeAll(b);
    ScrapeAllAppend(a, b);
    KeptAppend(sa, sb);
    JoinAppend(Kept(sa), Kept(sb));
    assert Serialize(a + b) == Join(Kept(sa + sb));
  }

  lemma {:induction false} NoneKept(cs: seq<Card>)
    requires forall i :: 0 <= i < |cs| ==> !Keep(cs[i])
    ensures Kept(cs) == []
    decreases |cs|
  {
    if |cs| > 0 {
      NoneKept(cs[1..]);
    }
  }

  /* Reading the text back. */

  /** The text before the first line feed and the text after it, or `None` when there is no line feed. */
  function SplitLine(s: string): (r: Option<(string, string)>)
    ensures r.Some? ==> |r.value.1| < |s|
    decreases |s|
  {
    if |s| == 0 then None
    else if s[0] == '\n' then Some(("", s[1..]))
    else match SplitLine(s[1..])
      case None => None
      case Some((line, rest)) => Some(([s[0]] + line, rest))
  }

  lemma {:induction false} SplitLineAt(line: string, rest: string)
    requires '\n' !in line
    ensures SplitLine(line + "\n" + rest) == Some((line, rest))
    decreases |line|
  {
    var s := line + "\n" + rest;
    if |line| == 0 {
      assert s == "\n" + rest;
      assert s[1..] == rest;
    } else {
      assert s[0] == line[0];
      assert s[1..] == line[1..] + "\n" + rest;
      SplitLineAt(line[1..], rest);
      assert [line[0]] + line[1..] == line;
    }
  }

  /** `prefix` then one line, returning the line and what follows it. */
  function ReadLabelled(prefix: string, s: string): (r: Option<(string, string)>)
    ensures r.Some? ==> |r.value.1| < |s|
  {
    if prefix <= s then SplitLine(s[|prefix|..]) else None
  }

  lemma ReadLabelledAt(prefix: string, line: string, rest: string)
    requires '\n' !in line
    ensures ReadLabelled(prefix, prefix + line + "\n" + rest) == Some((line, rest))
  {
    var s := prefix + line + "\n" + rest;
    assert s[..|prefix|] == prefix;
    assert s[|prefix|..] == line + "\n" + rest;
    SplitLineAt(line, rest);
  }

  /** Reads one rendered card off the front of `s`. */
  function ParseEntry(s: string): (r: Option<(Entry, string)>)
    ensures r.Some? ==> |r.value.1| < |s|
  {
    match ReadLabelled("Title: ", s)
    case None => None
    case Some((t, r1)) =>
      match ReadLabelled("Description: ", r1)
      case None => None
      case Some((d, r2)) =>
        match ReadLabelled("URL: ", r2)
        case None => None
        case Some((h, r3)) =>
          var tail := Rule + "\n\n";
          if tail <= r3 then Some((Entry(t, d, h), r3[|tail|..])) else None
  }

  /** Reads a whole serialised list back into its entries. */
  function Parse(s: string): Option<seq<Entry>>
    decreases |s|
  {
    if |s| == 0 then Some([])
    else match ParseEntry(s)
      case None => None
      case Some((e, rest)) =>
        match Parse(rest)
        case None => None
        case Some(es) => Some([e] + es)
  }

  predicate SingleLine(e: Entry) {
    '\n' !in e.title && '\n' !in e.description && '\n' !in e.href
  }

  /** The rendering of an entry followed by `rest`, split into its three labelled lines and the rule. */
  lemma RenderEntryFields(e: Entry, rest: string)
    ensures RenderEntry(e) + rest ==
      "Title: " + e.title + "\n" + ("Description: " + e.description + "\n" + ("URL: " + e.href + "\n" + (Rule + "\n\n" + rest)))
  {
  }

  lemma ParseEntryRender(e: Entry, rest: string)
    requires SingleLine(e)
    ensures ParseEntry(RenderEntry(e) + rest) == Some((e, rest))
  {
    var tail := Rule + "\n\n";
    var r3 := tail + rest;
    var r2 := "URL: " + e.href + "\n" + r3;
    var r1 := "Description: " + e.description + "\n" + r2;
    var s := "Title: " + e.title + "\n" + r1;
    RenderEntryFields(e, rest);
    ReadLabelledAt("Title: ", e.title, r1);
    ReadLabelledAt("Description: ", e.description, r2);
    ReadLabelledAt("URL: ", e.href, r3);
    assert r3[..|tail|] == tail;
    assert r3[|tail|..] == rest;
  }

  /** One step of `Parse`: an entry read off the front, then the rest read as a list. */
  lemma ParseCons(s: string, e: Entry, rest: string)
    requires s != "" && ParseEntry(s) == Some((e, rest)) && Parse(rest).Some?
    ensures Parse(s) == Some([e] + Parse(rest).value)
  {
  }

  /** Rendering then reading back gives the same entries, as long as no field holds a line feed. */
  lemma {:induction false} ParseJoin(es: seq<Entry>)
    requires forall i :: 0 <= i < |es| ==> SingleLine(es[i])
    ensures Parse(Join(es)) == Some(es)
    decreases |es|
  {
    if |es| > 0 {
      var text := Join(es);
      var rest := Join(es[1..]);
      assert text == RenderEntry(es[0]) + rest;
      ParseEntryRender(es[0], rest);
      ParseJoin(es[1..]);
      ParseCons(text, es[0], rest);
      assert [es[0]] + es[1..] == es;
    }
  }

  /** The serialised page reads back as exactly its kept cards, trimmed, in page order. */
  lemma ParseSerialize(cards: seq<RawCard>)
    requires forall i :: 0 <= i < |Kept(ScrapeAll(cards))| ==> SingleLine(Kept(ScrapeAll(cards))[i])
    ensures Parse(Serialize(cards)) == Some(Kept(ScrapeAll(cards)))
  {
    ParseJoin(Kept(ScrapeAll(cards)));
  }

  /** The loader yields one document, the serialised page, and it is appended: nothing is cleared first. */
  function Ingest(rows: seq<Doc>, cards: seq<RawCard>): (r: seq<Doc>)
    ensures r == Apply(rows, [Added([Doc(Serialize(cards), PageUrl)])])
  {
    AddKeeps(rows, [Doc(Serialize(cards), PageUrl)]);
    rows + [Doc(Serialize(cards), PageUrl)]
  }

  /** Each tool start appends the page again, so the same text accumulates. */
  lemma IngestTwiceDuplicates(rows: seq<Doc>, cards: seq<RawCard>)
    ensures Ingest(Ingest(rows, cards), cards) == rows + [Doc(Serialize(cards), PageUrl), Doc(Serialize(cards), PageUrl)]
    ensures |Ingest(Ingest(rows, cards), cards)| == |rows| + 2
  {
  }
}

=== FILE: contact_dto.dfy ===
/** The contact records exchanged by the directory service, and the partial record a PATCH carries. */
module ContactDto {
  import opened Optional

  /** A dependant: nothing constrains the sign of `age` or how many interests there are. */
  datatype Child = Child(name: string, age: int, interests: seq<string>)

  /** A contact record; `id` is chosen by whoever creates the record. */
  datatype Contact = Contact(
    id: int,
    firstName: string,
    lastName: string,
    spouseName: string,
    interests: seq<string>,
    job: string,
    children: seq<Child>)

  /** The update record: every property of a contact, each one optional (including `id`). */
  datatype ContactPatch = ContactPatch(
    id: Option<int>,
    firstName: Option<string>,
    lastName: Option<string>,
    spouseName: Option<string>,
    interests: Option<seq<string>>,
    job: Option<string>,
    children: Option<seq<Child>>)

  /** The patch that carries no property at all; it is a valid update body. */
  const EmptyPatch := ContactPatch(None, None, None, None, None, None, None)

  /** The patch that carries every property of `c`. */
  function FullPatch(c: Contact): ContactPatch {
    ContactPatch(Some(c.id), Some(c.firstName), Some(c.lastName), Some(c.spouseName),
                 Some(c.interests), Some(c.job), Some(c.children))
  }

  /** A patch that sets only the job. */
  function JobPatch(job: string): ContactPatch {
    EmptyPatch.(job := Some(job))
  }

  /**
   * `{ ...c, ...p }`: the object spread of the stored record followed by the patch. Property
   * by property, a present property of the patch wins and an absent one keeps the stored value.
   */
  function Merge(c: Contact, p: ContactPatch): (m: Contact)
    ensures (p.id.Some? ==> m.id == p.id.value) && (p.id.None? ==> m.id == c.id)
    ensures (p.firstName.Some? ==> m.firstName == p.firstName.value) && (p.firstName.None? ==> m.firstName == c.firstName)
    ensures (p.lastName.Some? ==> m.lastName == p.lastName.value) && (p.lastName.None? ==> m.lastName == c.lastName)
    ensures (p.spouseName.Some? ==> m.spouseName == p.spouseName.value) && (p.spouseName.None? ==> m.spouseName == c.spouseName)
    ensures (p.interests.Some? ==> m.interests == p.interests.value) && (p.interests.None? ==> m.interests == c.interests)
    ensures (p.job.Some? ==> m.job == p.job.value) && (p.job.None? ==> m.job == c.job)
    ensures (p.children.Some? ==> m.children == p.children.value) && (p.children.None? ==> m.children == c.children)
  {
    Contact(
      p.id.GetOr(c.id),
      p.firstName.GetOr(c.firstName),
      p.lastName.GetOr(c.lastName),
      p.spouseName.GetOr(c.spouseName),
      p.interests.GetOr(c.interests),
      p.job.GetOr(c.job),
      p.children.GetOr(c.children))
  }

  /** Merging the empty patch returns the record unchanged. */
  lemma MergeEmpty(c: Contact)
    ensures Merge(c, EmptyPatch) == c
  {
  }

  /** A patch carrying every property replaces the record entirely. */
  lemma MergeFull(c: Contact, d: Contact)
    ensures Merge(c, FullPatch(d)) == d
  {
  }

  /** Applying the same patch twice is the same as applying it once. */
  lemma MergeIdempotent(c: Contact, p: ContactPatch)
    ensures Merge(Merge(c, p), p) == Merge(c, p)
  {
  }

  /** Patching only the job leaves every other property of the record as it was. */
  lemma MergeJobOnly(c: Contact, job: string)
    ensures Merge(c, JobPatch(job)) == c.(job := job)
  {
  }
}

=== FILE: contact_seed.dfy ===
/** The fixed list of contacts the directory service starts from. */
module ContactSeed {
  import opened ContactDto

  const John := Contact(1, "John", "Smith", "Mary",
    ["golf", "tennis", "football"], "accountant",
    [ Child("Bobby", 12, ["hockey", "drones", "Minecraft"]),
      Child("Sally", 14, ["lacrosse", "ukelele", "gymnastics"]),
      Child("Jenny", 16, ["volleyball", "painting", "piano"]) ])

  const Jane := Contact(2, "Jane", "Davis", "Sam",
    ["cinema", "literature", "birdwatching"], "account executive",
    [ Child("Timmy", 5, ["blocks", "bugs", "rocks"]),
      Child("Tammy", 8, ["dinosaurs", "Minecraft", "ant farm"]) ])

  const Gary := Contact(3, "Gary", "Wright", "Mary",
    ["music", "kayaking", "birdwatching"], "account executive",
    [ Child("Richard", 15, ["Karate", "music", "Minecraft"]),
      Child("Julia", 11, ["dinosaurs", "yoga", "ant farm"]) ])

  /** The seed list, in declaration order. */
  const Database: seq<Contact> := [John, Jane, Gary]

  /** Three records with ids 1, 2 and 3, in that order, pairwise distinct. */
  lemma SeedIds()
    ensures |Database| == 3
    ensures Database[0].id == 1 && Database[1].id == 2 && Database[2].id == 3
    ensures forall i, j :: 0 <= i < j < |Database| ==> Database[i].id != Database[j].id
  {
  }

  /** Only John Smith (id 1) is an accountant; the other two are account executives. */
  lemma SeedJobs()
    ensures forall i :: 0 <= i < |Database| ==> (Database[i].job == "accountant" <==> Database[i].id == 1)
    ensures Database[0].firstName == "John" && Database[0].lastName == "Smith"
    ensures Database[1].job == "account executive" && Database[2].job == "account executive"
  {
  }

  /** Every seed record has three interests and two or three children, each with three interests. */
  lemma SeedShape()
    ensures forall i :: 0 <= i < |Database| ==>
      && |Database[i].interests| == 3
      && 2 <= |Database[i].children| <= 3
      && (forall k :: 0 <= k < |Database[i].children| ==> |Database[i].children[k].interests| == 3)
  {
  }

  /** Spouse names are not unique: Mary is married to both id 1 and id 3. */
  lemma SeedSharedSpouse()
    ensures Database[0].spouseName == "Mary" && Database[2].spouseName == "Mary"
    ensures Database[0].id != Database[2].id
  {
  }
}

=== FILE: contacts_command.dfy ===
/**
 * The `contacts` command: fetch every contact from the contacts API, replace the `contacts`
 * table with them, then answer questions from the contacts alone, with no chat history.
 *
 * The template as written asks for an `{input}` slot that the chain never fills (the chain
 * hands the prompt `context` and `question`), so every question ends the command with a
 * missing-value error. `AsWrittenPrompt` and `RunAsWritten` keep that; `Prompt` and `Run`
 * use `{question}` instead, the evidently intended slot.
 */
module ContactsCommand {
  import opened VectorTable
  import opened PromptTemplate
  import opened ExitKeyword
  import opened ChatChain

  const TableName := "contacts"

  /** The template's fixed text is shortened; only its slots and their order matter here. */
  const AsWrittenPrompt: Template := [
    Text("You are PersonalContactsGPT ... respond to the following user prompt: \""), Slot("input"),
    Text("\". ... CONTEXT: "), Slot("context"),
    Text("\n\n  HELPFUL ANSWER: ")]

  const Prompt: Template := [
    Text("You are PersonalContactsGPT ... respond to the following user prompt: \""), Slot("question"),
    Text("\". ... CONTEXT: "), Slot("context"),
    Text("\n\n  HELPFUL ANSWER: ")]

  /** The question is passed through as `question`; there is no history. */
  function ChainWith(template: Template): Wiring {
    Wiring("question", NoHistory, template)
  }

  /**
   * A run with a given template. `fetch` is what the OpenAPI chain returned for "all
   * contacts", already turned into documents; a failure there is caught and ends the command.
   */
  function RunWith(template: Template, fetch: Fetch, rows0: seq<Doc>, b: Backend, lines: seq<string>): (s: Session)
    ensures fetch.FetchError? ==> s == Session([], rows0, [], FetchFailed(fetch.reason), "")
    ensures fetch.Fetched? ==> s.setup == [Cleared, Added(fetch.docs)] && s.rows == fetch.docs
    ensures s.rows == Apply(rows0, s.setup)
    ensures fetch.Fetched? ==>
      var r := Loop(ChainWith(template), b, fetch.docs, lines, "", "");
      s.calls == r.calls && s.stop == r.stop
  {
    match fetch
    case FetchError(reason) => Session([], rows0, [], FetchFailed(reason), "")
    case Fetched(docs) =>
      ClearThenAdd(rows0, docs);
      var loop := Loop(ChainWith(template), b, docs, lines, "", "");
      Session([Cleared, Added(docs)], docs, loop.calls, loop.stop, loop.history)
  }

  /** The command as written: at most one call is made, and any call made fails for the missing `input` value. */
  function RunAsWritten(fetch: Fetch, rows0: seq<Doc>, b: Backend, lines: seq<string>): (s: Session)
    ensures fetch.FetchError? ==> s.setup == [] && s.stop == FetchFailed(fetch.reason)
    ensures fetch.Fetched? ==> s.setup == [Cleared, Added(fetch.docs)] && s.rows == fetch.docs
    ensures s.rows == Apply(rows0, s.setup)
    ensures fetch.Fetched? ==>
      var r := Loop(ChainWith(AsWrittenPrompt), b, fetch.docs, lines, "", "");
      s.calls == r.calls && s.stop == r.stop
    ensures |s.calls| <= 1
    ensures |s.calls| == 1 ==> s.calls[0].outcome == Raised(MissingSlot("input")) && s.stop == Crashed(MissingSlot("input"))
  {
    if fetch.Fetched? && |lines| > 0 && !IsExit(Answer(lines[0], DefaultAnswer)) then
      AsWrittenCrashesOnFirstQuestion(fetch, rows0, b, lines);
      RunWith(AsWrittenPrompt, fetch, rows0, b, lines)
    else
      RunWith(AsWrittenPrompt, fetch, rows0, b, lines)
  }

  /** The command with `{question}`: no call ever fails for a missing value; only the model can fail. */
  function Run(fetch: Fetch, rows0: seq<Doc>, b: Backend, lines: seq<string>): (s: Session)
    ensures fetch.FetchError? ==> s.setup == [] && s.stop == FetchFailed(fetch.reason)
    ensures fetch.Fetched? ==> s.setup == [Cleared, Added(fetch.docs)] && s.rows == fetch.docs
    ensures s.rows == Apply(rows0, s.setup)
    ensures fetch.Fetched? ==>
      var r := Loop(ChainWith(Prompt), b, fetch.docs, lines, "", "");
      s.calls == r.calls && s.stop == r.stop
    ensures forall i :: 0 <= i < |s.calls| && s.calls[i].outcome.Raised? ==> s.calls[i].outcome.error.BackendFailed?
  {
    if fetch.Fetched? then
      NoMissingSlot(fetch, rows0, b, lines);
      RunWith(Prompt, fetch, rows0, b, lines)
    else
      RunWith(Prompt, fetch, rows0, b, lines)
  }

  /** As written, the first question that is not an exit keyword ends the command with a missing `input` value. */
  lemma AsWrittenCrashesOnFirstQuestion(fetch: Fetch, rows0: seq<Doc>, b: Backend, lines: seq<string>)
    requires fetch.Fetched?
    requires |lines| > 0 && !IsExit(Answer(lines[0], DefaultAnswer))
    ensures |RunWith(AsWrittenPrompt, fetch, rows0, b, lines).calls| == 1
    ensures RunWith(AsWrittenPrompt, fetch, rows0, b, lines).stop == Crashed(MissingSlot("input"))
  {
    var w := ChainWith(AsWrittenPrompt);
    var q := Answer(lines[0], DefaultAnswer);
    var values := PromptValues(w, q, "", b.serializeDocs(b.retrieve(fetch.docs, q)));
    assert values.Keys == {"question", "context"};
    assert Render(AsWrittenPrompt, values) == Missing("input");
  }

  /** With `{question}`, every slot is supplied, so no call raises a missing-value error. */
  lemma NoMissingSlot(fetch: Fetch, rows0: seq<Doc>, b: Backend, lines: seq<string>)
    requires fetch.Fetched?
    ensures forall i :: 0 <= i < |RunWith(Prompt, fetch, rows0, b, lines).calls| ==>
      !(RunWith(Prompt, fetch, rows0, b, lines).calls[i].outcome.Raised? &&
        RunWith(Prompt, fetch, rows0, b, lines).calls[i].outcome.error.MissingSlot?)
  {
    var w := ChainWith(Prompt);
    var calls := RunWith(Prompt, fetch, rows0, b, lines).calls;
    PromptSlotsMatchKeys();
    LoopTurns(w, b, fetch.docs, lines, "", "");
    forall i | 0 <= i < |calls|
      ensures !(calls[i].outcome.Raised? && calls[i].outcome.error.MissingSlot?)
    {
      assert IsTurn(w, b, fetch.docs, calls, i, "", "");
    }
  }

  /** As written, the template asks for a slot the chain does not supply. */
  lemma AsWrittenSlotUnsupplied()
    ensures Slots(AsWrittenPrompt) - SuppliedKeys(ChainWith(AsWrittenPrompt)) == {"input"}
  {
  }

  /** With `{question}`, the template's slots are exactly the keys the chain supplies, and none of them is a history. */
  lemma PromptSlotsMatchKeys()
    ensures Slots(Prompt) == SuppliedKeys(ChainWith(Prompt)) == {"question", "context"}
  {
  }

  /** With the intended template and a model that always answers, each question before the first exit keyword is answered once, in order. */
  lemma OneCallPerQuestion(fetch: Fetch, rows0: seq<Doc>, b: Backend, lines: seq<string>)
    requires fetch.Fetched?
    requires forall p :: b.llm(p).Completed?
    ensures |Run(fetch, rows0, b, lines).calls| == FirstExit(lines)
    ensures Run(fetch, rows0, b, lines).stop.Exited? <==> FirstExit(lines) < |lines|
    ensures forall i :: 0 <= i < |Run(fetch, rows0, b, lines).calls| ==>
      Run(fetch, rows0, b, lines).calls[i].question == Answer(lines[i], DefaultAnswer)
    ensures forall i :: 0 <= i < |Run(fetch, rows0, b, lines).calls| ==>
      Run(fetch, rows0, b, lines).calls[i].outcome.Answered?
  {
    PromptSlotsMatchKeys();
    InvokesUntilFirstExit(ChainWith(Prompt), b, fetch.docs, lines, "", "");
  }

  /** Every call hands the prompt the question and the retrieved contacts only: no history ever reaches it. */
  lemma NoHistoryInPrompt(template: Template, fetch: Fetch, rows0: seq<Doc>, b: Backend, lines: seq<string>)
    requires fetch.Fetched?
    ensures forall i :: 0 <= i < |RunWith(template, fetch, rows0, b, lines).calls| ==>
      && RunWith(template, fetch, rows0, b, lines).calls[i].values.Keys == {"question", "context"}
      && RunWith(template, fetch, rows0, b, lines).calls[i].values["context"] ==
           b.serializeDocs(b.retrieve(fetch.docs, RunWith(template, fetch, rows0, b, lines).calls[i].question))
  {
    var w := ChainWith(template);
    var calls := RunWith(template, fetch, rows0, b, lines).calls;
    LoopTurns(w, b, fetch.docs, lines, "", "");
    forall i | 0 <= i < |calls|
      ensures calls[i].values.Keys == {"question", "context"}
      ensures calls[i].values["context"] == b.serializeDocs(b.retrieve(fetch.docs, calls[i].question))
    {
      assert IsTurn(w, b, fetch.docs, calls, i, "", "");
      var c := Invoke(w, b, fetch.docs, calls[i].question, calls[i].history);
      assert calls[i] == c;
    }
  }
}

=== FILE: contacts_service.dfy ===
/**
 * The directory service: an in-memory list of contacts, created, looked up, patched and
 * removed by id. Each operation takes the list as it is and returns its answer together
 * with the list as it is afterwards. Ids are not checked for uniqueness anywhere.
 */
module ContactsService {
  import opened Optional
  import opened ContactDto
  import Decimal
  import ContactSeed

  /** The one failure the service raises: a lookup by an id no record carries. */
  datatype Error = NotFound(message: string)

  datatype Result<+T> = Ok(value: T) | Err(error: Error)

  /** An operation's answer and the store after the operation. */
  datatype Reply<+T> = Reply(result: Result<T>, contacts: seq<Contact>)

  /** The text of the 404: `Contact #<id> not found`, from which the id reads back. */
  function NotFoundMessage(id: int): (m: string)
    ensures |m| > 19 && m[..9] == "Contact #" && m[|m| - 10..] == " not found"
    ensures m[9..|m| - 10] == Decimal.IntToString(id)
    ensures Decimal.IsNumeral(m[9..|m| - 10]) && Decimal.ParseInt(m[9..|m| - 10]) == id
  {
    var digits := Decimal.IntToString(id);
    Decimal.IntRoundTrip(id);
    var head := "Contact #" + digits;
    var m := head + " not found";
    assert |head| == 9 + |digits| && |m| == |head| + 10;
    assert m[..|head|] == head && m[|head|..] == " not found";
    assert head[..9] == "Contact #" && head[9..] == digits;
    assert m[..9] == head[..9];
    assert m[9..|m| - 10] == head[9..];
    m
  }

  predicate HasId(s: seq<Contact>, id: int) {
    exists i :: 0 <= i < |s| && s[i].id == id
  }

  /** Position `i` holds the first record with this id. */
  predicate IsFirstWithId(s: seq<Contact>, id: int, i: int) {
    0 <= i < |s| && s[i].id == id && forall j :: 0 <= j < i ==> s[j].id != id
  }

  predicate UniqueIds(s: seq<Contact>) {
    forall i, j :: 0 <= i < j < |s| ==> s[i].id != s[j].id
  }

  function CountId(s: seq<Contact>, id: int): nat
    decreases |s|
  {
    if |s| == 0 then 0 else (if s[0].id == id then 1 else 0) + CountId(s[1..], id)
  }

  /** The store a fresh service instance holds: a copy of the seed list, three records with ids 1, 2 and 3. */
  function Initial(): (s: seq<Contact>)
    ensures s == ContactSeed.Database
    ensures |s| == 3 && s[0].id == 1 && s[1].id == 2 && s[2].id == 3
    ensures UniqueIds(s)
  {
    ContactSeed.SeedIds();
    ContactSeed.Database
  }

  /** Left-to-right search, as `Array.prototype.find` does it. */
  function FirstIndex(s: seq<Contact>, id: int): (r: Option<nat>)
    ensures r.Some? ==> IsFirstWithId(s, id, r.value)
    ensures r.None? ==> !HasId(s, id)
    decreases |s|
  {
    if |s| == 0 then None
    else if s[0].id == id then Some(0)
    else
      match FirstIndex(s[1..], id)
      case Some(k) =>
        assert s[k + 1] == s[1..][k];
        Some(k + 1)
      case None =>
        assert forall i :: 1 <= i < |s| ==> s[i] == s[1..][i - 1];
        None
  }

  /** `create`: the record is appended as given and returned; its id is not checked. */
  function Create(s: seq<Contact>, c: Contact): (r: Reply<Contact>)
    ensures r.result == Ok(c)
    ensures |r.contacts| == |s| + 1 && r.contacts[..|s|] == s && r.contacts[|s|] == c
  {
    Reply(Ok(c), s + [c])
  }

  /** `findAll`: the whole store, in order, unchanged. */
  function FindAll(s: seq<Contact>): (r: Reply<seq<Contact>>)
    ensures r.result == Ok(s) && r.contacts == s
  {
    Reply(Ok(s), s)
  }

  /** `findOne`: the first record with the id, or `NotFound`; the store is never changed. */
  function FindOne(s: seq<Contact>, id: int): (r: Reply<Contact>)
    ensures r.contacts == s
    ensures r.result.Ok? <==> HasId(s, id)
    ensures r.result.Ok? ==> exists i :: IsFirstWithId(s, id, i) && r.result.value == s[i]
    ensures r.result.Err? ==> r.result.error == NotFound(NotFoundMessage(id))
  {
    match FirstIndex(s, id)
    case Some(i) => Reply(Ok(s[i]), s)
    case None => Reply(Err(NotFound(NotFoundMessage(id))), s)
  }

  /** The `map` of `update`: every record with the id becomes `m`, the others stay. */
  function ReplaceAll(s: seq<Contact>, id: int, m: Contact): (r: seq<Contact>)
    ensures |r| == |s|
    ensures forall i :: 0 <= i < |s| ==> r[i] == (if s[i].id == id then m else s[i])
    decreases |s|
  {
    if |s| == 0 then [] else [if s[0].id == id then m else s[0]] + ReplaceAll(s[1..], id, m)
  }

  /** The `filter` of `remove`: the records whose id differs, in their original order. */
  function Without(s: seq<Contact>, id: int): (r: seq<Contact>)
    ensures forall c :: c in r <==> c in s && c.id != id
    ensures |r| + CountId(s, id) == |s|
    decreases |s|
  {
    if |s| == 0 then []
    else if s[0].id == id then Without(s[1..], id)
    else [s[0]] + Without(s[1..], id)
  }

  /**
   * `update`: looks the id up first (failing `NotFound` with the store unchanged), merges the
   * patch into the first match, then puts that one merged record in place of EVERY record
   * with the id; length and order are kept and records with other ids are untouched.
   */
  function Update(s: seq<Contact>, id: int, p: ContactPatch): (r: Reply<Contact>)
    ensures !HasId(s, id) ==> r == Reply(Err(NotFound(NotFoundMessage(id))), s)
    ensures HasId(s, id) ==> exists i :: IsFirstWithId(s, id, i) && r.result == Ok(Merge(s[i], p))
    ensures |r.contacts| == |s|
    ensures r.result.Ok? ==>
      forall i :: 0 <= i < |s| ==> r.contacts[i] == (if s[i].id == id then r.result.value else s[i])
  {
    var found := FindOne(s, id);
    match found.result
    case Err(e) => Reply(Err(e), s)
    case Ok(c) =>
      var merged := Merge(c, p);
      Reply(Ok(merged), ReplaceAll(s, id, merged))
  }

  /**
   * `remove`: looks the id up first (failing `NotFound` with the store unchanged), then
   * drops every record carrying the found record's id and answers `true`.
   */
  function Remove(s: seq<Contact>, id: int): (r: Reply<bool>)
    ensures !HasId(s, id) ==> r == Reply(Err(NotFound(NotFoundMessage(id))), s)
    ensures HasId(s, id) ==> r.result == Ok(true) && r.contacts == Without(s, id)
    ensures HasId(s, id) ==> !HasId(r.contacts, id) && |r.contacts| < |s|
  {
    var found := FindOne(s, id);
    match found.result
    case Err(e) => Reply(Err(e), s)
    case Ok(c) =>
      var rest := Without(s, c.id);
      assert !HasId(rest, id) by {
        forall i | 0 <= i < |rest| ensures rest[i].id != id {
          assert rest[i] in rest;
        }
      }
      assert CountId(s, id) > 0 by { CountPositive(s, id); }
      Reply(Ok(true), rest)
  }

  lemma FirstIsUnique(s: seq<Contact>, id: int, i: int, k: int)
    requires IsFirstWithId(s, id, i) && IsFirstWithId(s, id, k)
    ensures i == k
  {
  }

  lemma {:induction false} CountPositive(s: seq<Contact>, id: int)
    requires HasId(s, id)
    ensures CountId(s, id) > 0
    decreases |s|
  {
    if s[0].id != id {
      var i :| 0 <= i < |s| && s[i].id == id;
      assert s[1..][i - 1].id == id;
      CountPositive(s[1..], id);
    }
  }

  /** The filter keeps relative order: it distributes over concatenation. */
  lemma {:induction false} WithoutAppend(a: seq<Contact>, b: seq<Contact>, id: int)
    ensures Without(a + b, id) == Without(a, id) + Without(b, id)
    decreases |a|
  {
    if |a| > 0 {
      var ab := a + b;
      assert ab[0] == a[0] && ab[1..] == a[1..] + b;
      WithoutAppend(a[1..], b, id);
      if a[0].id == id {
        assert Without(ab, id) == Without(a[1..] + b, id);
        assert Without(a, id) == Without(a[1..], id);
      } else {
        assert Without(ab, id) == [a[0]] + Without(a[1..] + b, id);
        assert Without(a, id) == [a[0]] + Without(a[1..], id);
        assert [a[0]] + (Without(a[1..], id) + Without(b, id)) == ([a[0]] + Without(a[1..], id)) + Without(b, id);
      }
    } else {
      assert a + b == b;
    }
  }

  /** With no record to drop, the filter returns the store unchanged. */
  lemma WithoutKeepsHead(s: seq<Contact>, id: int)
    requires |s| > 0 && s[0].id != id
    ensures Without(s, id) == [s[0]] + Without(s[1..], id)
  {
  }

  lemma NoIdInTail(s: seq<Contact>, id: int)
    requires |s| > 0 && !HasId(s, id)
    ensures !HasId(s[1..], id)
  {
    forall i | 0 <= i < |s| - 1 ensures s[1..][i].id != id {
      assert s[1..][i] == s[i + 1];
    }
  }

  lemma {:induction false} WithoutNothing(s: seq<Contact>, id: int)
    requires !HasId(s, id)
    ensures Without(s, id) == s
    decreases |s|
  {
    if |s| > 0 {
      assert s[0].id != id;
      NoIdInTail(s, id);
      WithoutNothing(s[1..], id);
      WithoutKeepsHead(s, id);
      assert s == [s[0]] + s[1..];
    }
  }

  /** On the initial store exactly ids 1, 2 and 3 are found, each as its own seed record. */
  lemma InitialLookups(k: int)
    ensures FindOne(Initial(), k).result.Ok? <==> 1 <= k <= 3
    ensures 1 <= k <= 3 ==> FindOne(Initial(), k).result == Ok(ContactSeed.Database[k - 1])
  {
    var s := Initial();
    ContactSeed.SeedIds();
    if 1 <= k <= 3 {
      assert s[k - 1].id == k;
      var r := FindOne(s, k);
      var i :| IsFirstWithId(s, k, i) && r.result.value == s[i];
    } else {
      assert !HasId(s, k);
    }
  }

  /** Creating a record with an id already present does not change what `findOne` returns for it. */
  lemma CreateDuplicateKeepsEarlier(s: seq<Contact>, c: Contact)
    requires HasId(s, c.id)
    ensures FindOne(Create(s, c).contacts, c.id).result == FindOne(s, c.id).result
  {
    var t := Create(s, c).contacts;
    var r := FindOne(s, c.id);
    assert r.result.Ok?;
    var i :| IsFirstWithId(s, c.id, i) && r.result.value == s[i];
    assert t[i] == s[i];
    assert IsFirstWithId(t, c.id, i) by {
      forall j | 0 <= j < i ensures t[j].id != c.id {
        assert t[j] == s[j];
      }
    }
    var rt := FindOne(t, c.id);
    assert HasId(t, c.id);
    var k :| IsFirstWithId(t, c.id, k) && rt.result.value == t[k];
    assert k == i by { FirstIsUnique(t, c.id, i, k); }
  }

  /** A record created under a fresh id is what `findOne` then returns. */
  lemma CreateFreshIsFound(s: seq<Contact>, c: Contact)
    requires !HasId(s, c.id)
    ensures FindOne(Create(s, c).contacts, c.id).result == Ok(c)
  {
    var t := Create(s, c).contacts;
    assert t[|s|].id == c.id;
    assert HasId(t, c.id);
    var rt := FindOne(t, c.id);
    var k :| IsFirstWithId(t, c.id, k) && rt.result.value == t[k];
  }

  /** Removing the id of a record just created under a fresh id gives back the earlier store. */
  lemma CreateThenRemoveRestores(s: seq<Contact>, c: Contact)
    requires !HasId(s, c.id)
    ensures Remove(Create(s, c).contacts, c.id) == Reply(Ok(true), s)
  {
    var t := Create(s, c).contacts;
    assert t[|s|].id == c.id;
    WithoutAppend(s, [c], c.id);
    WithoutNothing(s, c.id);
    assert Without([c], c.id) == [];
  }

  /** After a successful `remove(id)`, `findOne(id)` fails `NotFound`, and so does a second `remove(id)`. */
  lemma RemoveThenNotFound(s: seq<Contact>, id: int)
    requires Remove(s, id).result.Ok?
    ensures FindOne(Remove(s, id).contacts, id).result == Err(NotFound(NotFoundMessage(id)))
    ensures Remove(Remove(s, id).contacts, id).result.Err?
  {
  }

  /** A patch that rewrites the id moves the record: the old id is no longer found, the new one is. */
  lemma UpdateRewritesId(s: seq<Contact>, id: int, p: ContactPatch)
    requires HasId(s, id) && p.id.Some? && p.id.value != id
    ensures FindOne(Update(s, id, p).contacts, id).result.Err?
    ensures FindOne(Update(s, id, p).contacts, p.id.value).result.Ok?
  {
    var r := Update(s, id, p);
    var i :| IsFirstWithId(s, id, i) && r.result == Ok(Merge(s[i], p));
    assert r.contacts[i].id == p.id.value;
    assert !HasId(r.contacts, id) by {
      forall j | 0 <= j < |r.contacts| ensures r.contacts[j].id != id {
      }
    }
  }

  /** A patch that keeps the id: `findOne` then returns exactly what `update` returned. */
  lemma UpdateThenFindOne(s: seq<Contact>, id: int, p: ContactPatch)
    requires HasId(s, id) && (p.id.None? || p.id == Some(id))
    ensures FindOne(Update(s, id, p).contacts, id).result == Update(s, id, p).result
  {
    var r := Update(s, id, p);
    var i :| IsFirstWithId(s, id, i) && r.result == Ok(Merge(s[i], p));
    assert IsFirstWithId(r.contacts, id, i);
    assert HasId(r.contacts, id);
    var rf := FindOne(r.contacts, id);
    var k :| IsFirstWithId(r.contacts, id, k) && rf.result.value == r.contacts[k];
    assert k == i by { FirstIsUnique(r.contacts, id, i, k); }
  }

  /** With unique ids, the empty patch leaves the whole store unchanged. */
  lemma UpdateEmptyPatchUnique(s: seq<Contact>, id: int)
    requires UniqueIds(s) && HasId(s, id)
    ensures Update(s, id, EmptyPatch).contacts == s
  {
    var r := Update(s, id, EmptyPatch);
    var i :| IsFirstWithId(s, id, i) && r.result == Ok(Merge(s[i], EmptyPatch));
    MergeEmpty(s[i]);
    assert forall j :: 0 <= j < |s| && s[j].id == id ==> j == i;
  }

  /** With duplicate ids, even the empty patch overwrites every later duplicate with the first one. */
  lemma UpdateCollapsesDuplicates(s: seq<Contact>, id: int, i: nat, j: nat)
    requires IsFirstWithId(s, id, i) && i < j < |s| && s[j].id == id
    ensures Update(s, id, EmptyPatch).result == Ok(s[i])
    ensures Update(s, id, EmptyPatch).contacts[i] == s[i]
    ensures Update(s, id, EmptyPatch).contacts[j] == s[i]
  {
    var r := Update(s, id, EmptyPatch);
    var k :| IsFirstWithId(s, id, k) && r.result == Ok(Merge(s[k], EmptyPatch));
    FirstIsUnique(s, id, i, k);
    MergeEmpty(s[i]);
  }

  /** Different ids give different 404 messages, since the id reads back from the message. */
  lemma NotFoundMessagesDistinct(a: int, b: int)
    requires a != b
    ensures NotFoundMessage(a) != NotFoundMessage(b)
  {
  }
}

=== FILE: decimal.dfy ===
/**
 * Decimal rendering of integer ids in the not-found message. This matches how a template
 * literal prints a safe integer (magnitude below 2^53); JavaScript switches to exponent
 * notation from 1e21 on, which is not modelled.
 */
module Decimal {

  function DigitChar(d: nat): (c: char)
    requires d < 10
    ensures '0' <= c <= '9'
  {
    "0123456789"[d]
  }

  function DigitValue(c: char): nat
    requires '0' <= c <= '9'
  {
    (c as int - '0' as int) as nat
  }

  predicate IsDigits(s: string) {
    forall i :: 0 <= i < |s| ==> '0' <= s[i] <= '9'
  }

  /** Base-10 digits of `n`, most significant first, without leading zeros. */
  function NatToString(n: nat): (s: string)
    ensures |s| > 0 && IsDigits(s)
    ensures |s| > 1 ==> s[0] != '0'
    ensures s[0] == '0' <==> n == 0
    decreases n
  {
    if n < 10 then [DigitChar(n)] else NatToString(n / 10) + [DigitChar(n % 10)]
  }

  /** A minus sign for negative numbers, then the digits of the magnitude. */
  function IntToString(n: int): (s: string)
    ensures |s| > 0
    ensures n < 0 <==> s[0] == '-'
    ensures IsNumeral(s)
    ensures s[0] != '-' && |s| > 1 ==> s[0] != '0'
    ensures s[0] == '-' ==> |s| > 1 && s[1] != '0'
  {
    if n < 0 then "-" + NatToString(-n) else NatToString(n)
  }

  /** Reads a string of digits back as a number. */
  function DigitsToNat(s: string): nat
    requires IsDigits(s)
    decreases |s|
  {
    if |s| == 0 then 0 else 10 * DigitsToNat(s[..|s| - 1]) + DigitValue(s[|s| - 1])
  }

  /** An optional minus sign followed by digits: what `ParseInt` reads. */
  predicate IsNumeral(s: string) {
    |s| > 0 && (s[0] == '-' ==> IsDigits(s[1..])) && (s[0] != '-' ==> IsDigits(s))
  }

  function ParseInt(s: string): int
    requires |s| > 0
    requires s[0] == '-' ==> IsDigits(s[1..])
    requires s[0] != '-' ==> IsDigits(s)
  {
    if s[0] == '-' then 0 - DigitsToNat(s[1..]) else DigitsToNat(s)
  }

  lemma {:induction false} NatRoundTrip(n: nat)
    ensures DigitsToNat(NatToString(n)) == n
    decreases n
  {
    if n >= 10 {
      var s := NatToString(n);
      assert s[..|s| - 1] == NatToString(n / 10);
      NatRoundTrip(n / 10);
    }
  }

  /** Parsing the rendering of any integer gives the integer back. */
  lemma IntRoundTrip(n: int)
    ensures var s := IntToString(n);
      (s[0] == '-' ==> IsDigits(s[1..])) && (s[0] != '-' ==> IsDigits(s)) && ParseInt(s) == n
  {
    var s := IntToString(n);
    if n < 0 {
      var m: nat := -n;
      assert s == "-" + NatToString(m);
      assert s[1..] == NatToString(m);
      NatRoundTrip(m);
      assert ParseInt(s) == 0 - DigitsToNat(NatToString(m));
    } else {
      assert s == NatToString(n);
      NatRoundTrip(n);
    }
  }

  /** Distinct integers render differently. */
  lemma IntToStringInjective(a: int, b: int)
    requires IntToString(a) == IntToString(b)
    ensures a == b
  {
    IntRoundTrip(a);
    IntRoundTrip(b);
  }
}

=== FILE: docs_command.dfy ===
/**
 * The `docs` command: chat with the Parking Manager documentation. In verbose mode the table
 * is emptied first; the documentation is then loaded, split and stored only if the table
 * holds no rows. Each question goes to a retrieval chain whose prompt has no history slot.
 */
module DocsCommand {
  import opened VectorTable
  import opened PromptTemplate
  import opened ExitKeyword
  import opened ChatChain

  const TableName := "parking_manager_data"

  /** The HTML-aware splitter settings. */
  const Splitter := SplitterConfig(1200, 200, true)

  /**
   * The system message (instructions, then the retrieved context) followed by the human message
   * `{input}`. The fixed text is shortened; only the slots and their order matter here.
   */
  const Prompt: Template := [
    Text("You are Parking Manager Helper GPT.\nRetrieved Context:\n"), Slot("context"), Text("\n"),
    Slot("input")]

  /** The question is passed as `input`; `chatHistory` is passed too, computed from (question, answer). */
  const Chain := Wiring("input", QuestionThenAnswer, Prompt)

  function Run(verbose: bool, rows0: seq<Doc>, loaded: seq<Doc>, b: Backend, lines: seq<string>): (s: Session)
    ensures verbose ==> s.setup == [Cleared, Added(b.split(Splitter, loaded))]
    ensures !verbose ==> (Ingests(s.setup) <==> !DataExists(rows0)) && !Clears(s.setup)
    ensures !verbose && DataExists(rows0) ==> s.setup == [] && s.rows == rows0
    ensures verbose || !DataExists(rows0) ==> s.rows == b.split(Splitter, loaded)
    ensures s.rows == Apply(rows0, s.setup)
    ensures s.calls == Loop(Chain, b, s.rows, lines, "", "").calls
    ensures s.stop == Loop(Chain, b, s.rows, lines, "", "").stop
    ensures s.history == Loop(Chain, b, s.rows, lines, "", "").history
  {
    var table := if verbose then Clear(rows0) else rows0;
    var cleared: seq<TableOp> := if verbose then [Cleared] else [];
    var chunks := b.split(Splitter, loaded);
    var ingest := !DataExists(table);
    var rows := if ingest then AddDocuments(table, chunks) else table;
    var ops := cleared + (if ingest then [Added(chunks)] else []);
    assert Apply(rows0, ops) == rows by {
      if verbose {
        ClearThenAdd(rows0, chunks);
      } else if ingest {
        assert ops == [Added(chunks)] && ops[1..] == [];
      }
    }
    assert !verbose ==> !Clears(ops) by {
      if !verbose && ingest {
        assert ops == [Added(chunks)];
      }
    }
    assert Ingests(ops) <==> ingest by {
      if ingest {
        assert ops[|ops| - 1] == Added(chunks);
      }
    }
    var loop := Loop(Chain, b, rows, lines, "", "");
    Session(ops, rows, loop.calls, loop.stop, loop.history)
  }

  /** The question goes under `input`, as the template's human message expects. */
  lemma PromptSlots()
    ensures Slots(Prompt) == {"context", "input"}
    ensures Slots(Prompt) <= SuppliedKeys(Chain)
    ensures "chatHistory" in SuppliedKeys(Chain) && "chatHistory" !in Slots(Prompt)
  {
  }

  /** Verbose mode always ingests: the table is emptied before the existence check. */
  lemma VerboseAlwaysIngests(rows0: seq<Doc>, loaded: seq<Doc>, b: Backend, lines: seq<string>)
    ensures Ingests(Run(true, rows0, loaded, b, lines).setup)
  {
    var s := Run(true, rows0, loaded, b, lines);
    assert s.setup[1].Added?;
  }

  /** An exit keyword as the first question ends the run with no call to the chain. */
  lemma ExitFirstNoCall(verbose: bool, rows0: seq<Doc>, loaded: seq<Doc>, b: Backend, lines: seq<string>)
    requires |lines| > 0 && IsExit(Answer(lines[0], DefaultAnswer))
    ensures Run(verbose, rows0, loaded, b, lines).calls == []
    ensures Run(verbose, rows0, loaded, b, lines).stop == Exited
  {
  }

  /** A chain that never raises is invoked once per question before the first exit keyword, in order. */
  lemma OneCallPerQuestion(verbose: bool, rows0: seq<Doc>, loaded: seq<Doc>, b: Backend, lines: seq<string>)
    requires NeverRaises(Chain, b)
    ensures |Run(verbose, rows0, loaded, b, lines).calls| == FirstExit(lines)
    ensures forall i :: 0 <= i < |Run(verbose, rows0, loaded, b, lines).calls| ==>
      Run(verbose, rows0, loaded, b, lines).calls[i].question == Answer(lines[i], DefaultAnswer)
  {
    var s := Run(verbose, rows0, loaded, b, lines);
    InvokesUntilFirstExit(Chain, b, s.rows, lines, "", "");
  }

  /**
   * `chatHistory` is overwritten each turn from (this question, previous answer), the first
   * previous answer being empty; it is never accumulated.
   */
  lemma HistoryFromQuestionAndLastAnswer(verbose: bool, rows0: seq<Doc>, loaded: seq<Doc>, b: Backend, lines: seq<string>)
    ensures forall i :: 0 <= i < |Run(verbose, rows0, loaded, b, lines).calls| ==>
      Run(verbose, rows0, loaded, b, lines).calls[i].history ==
        b.formatChatHistory(Run(verbose, rows0, loaded, b, lines).calls[i].question,
                            AnswerBefore(Run(verbose, rows0, loaded, b, lines).calls, i, ""))
  {
    var s := Run(verbose, rows0, loaded, b, lines);
    LoopTurns(Chain, b, s.rows, lines, "", "");
    forall i | 0 <= i < |s.calls|
      ensures s.calls[i].history == b.formatChatHistory(s.calls[i].question, AnswerBefore(s.calls, i, ""))
    {
      assert IsTurn(Chain, b, s.rows, s.calls, i, "", "");
    }
  }

  /** The history is recomputed even for the exit line, from that line and the last answer. */
  lemma HistoryRecomputedAtExit(verbose: bool, rows0: seq<Doc>, loaded: seq<Doc>, b: Backend, lines: seq<string>)
    requires Run(verbose, rows0, loaded, b, lines).stop.Exited?
    ensures Run(verbose, rows0, loaded, b, lines).history ==
      b.formatChatHistory(Answer(lines[|Run(verbose, rows0, loaded, b, lines).calls|], DefaultAnswer),
                          AnswerBefore(Run(verbose, rows0, loaded, b, lines).calls,
                                       |Run(verbose, rows0, loaded, b, lines).calls|, ""))
  {
    var s := Run(verbose, rows0, loaded, b, lines);
    ExitedAtExitLine(Chain, b, s.rows, lines, "", "");
  }

  /**
   * The history fills no slot: whatever `formatChatHistory` computes, every call has the
   * same outcome and the run ends the same way.
   */
  lemma HistoryHasNoEffect(verbose: bool, rows0: seq<Doc>, loaded: seq<Doc>, b: Backend,
                           format: (string, string) -> string, lines: seq<string>)
    ensures Outcomes(Run(verbose, rows0, loaded, b, lines).calls) ==
            Outcomes(Run(verbose, rows0, loaded, b.(formatChatHistory := format), lines).calls)
    ensures Run(verbose, rows0, loaded, b, lines).stop == Run(verbose, rows0, loaded, b.(formatChatHistory := format), lines).stop
  {
    PromptSlots();
    var s := Run(verbose, rows0, loaded, b, lines);
    HistoryIgnoredWithoutSlot(Chain, b, format, s.rows, lines, "", "", "");
  }
}

=== FILE: exit_keyword.dfy ===
/**
 * The exit test shared by every chat command: the line, lower-cased, is one of four
 * keywords. Nothing is trimmed. Lower-casing is modelled for ASCII letters only.
 */
module ExitKeyword {

  const Keywords: seq<string> := ["done", "goodbye", "bye", "exit"]

  /** The default every question prompt offers. */
  const DefaultAnswer := "done"

  function LowerChar(c: char): char {
    if 'A' <= c <= 'Z' then (c as int + 32) as char else c
  }

  function UpperChar(c: char): char {
    if 'a' <= c <= 'z' then (c as int - 32) as char else c
  }

  /** `toLowerCase`, character by character: each character is lowered on its own. */
  function ToLower(s: string): (r: string)
    ensures |r| == |s|
    ensures forall i :: 0 <= i < |s| ==> r[i] == LowerChar(s[i])
    decreases |s|
  {
    if |s| == 0 then "" else
      var rest := ToLower(s[1..]);
      assert forall i :: 1 <= i < |s| ==> s[1..][i - 1] == s[i];
      [LowerChar(s[0])] + rest
  }

  /** The exit test; only a line as long as one of the keywords (three, four or seven characters) can pass it. */
  predicate IsExit(line: string)
    ensures IsExit(line) ==> |line| == 3 || |line| == 4 || |line| == 7
  {
    ToLower(line) in Keywords
  }

  /** What a prompt hands back: the typed line, or the prompt's default for an empty line. */
  function Answer(line: string, default: string): (a: string)
    ensures line != "" ==> a == line
    ensures line == "" ==> a == default
  {
    if line == "" then default else line
  }

  predicate IsLowerWord(k: string) {
    forall i :: 0 <= i < |k| ==> 'a' <= k[i] <= 'z'
  }

  /** `s` spells `k` letter by letter, each letter in either case. */
  predicate SpellsIgnoringCase(s: string, k: string) {
    |s| == |k| && forall i :: 0 <= i < |s| ==> s[i] == k[i] || s[i] == UpperChar(k[i])
  }

  lemma {:induction false} LowerMatchesSpelling(s: string, k: string)
    requires IsLowerWord(k)
    ensures ToLower(s) == k <==> SpellsIgnoringCase(s, k)
  {
    if ToLower(s) == k {
      forall i | 0 <= i < |s| ensures s[i] == k[i] || s[i] == UpperChar(k[i]) {
        assert LowerChar(s[i]) == k[i];
      }
    }
    if SpellsIgnoringCase(s, k) {
      var r := ToLower(s);
      forall i | 0 <= i < |s| ensures r[i] == k[i] {
        assert 'a' <= k[i] <= 'z';
      }
      assert r == k;
    }
  }

  /** The exit test holds exactly when the line spells one of the keywords in any mix of cases. */
  lemma ExitIffSpellsKeyword(line: string)
    ensures IsExit(line) <==> exists j :: 0 <= j < |Keywords| && SpellsIgnoringCase(line, Keywords[j])
  {
    forall j | 0 <= j < |Keywords|
      ensures ToLower(line) == Keywords[j] <==> SpellsIgnoringCase(line, Keywords[j])
    {
      LowerMatchesSpelling(line, Keywords[j]);
    }
  }

  /** Case does not matter: upper- and mixed-case spellings of the keywords exit. */
  lemma ExitIgnoresCase()
    ensures IsExit("BYE") && IsExit("Done") && IsExit("eXiT")
  {
    assert ToLower("BYE") == "bye";
    assert ToLower("Done") == "done";
    assert ToLower("eXiT") == "exit";
  }

  /** Nothing is trimmed: a keyword with a blank around it, or any other word, does not exit. */
  lemma ExitDoesNotTrim()
    ensures !IsExit(" bye") && !IsExit("bye ") && !IsExit("quit")
  {
    assert ToLower(" bye")[0] == ' ';
    assert |ToLower("bye ")| == 4 && ToLower("bye ")[3] == ' ';
    assert ToLower("quit")[0] == 'q';
  }

  /** An empty line is not itself a keyword, but it answers the default `done`, which exits. */
  lemma EmptyLineExits()
    ensures !IsExit("")
    ensures IsExit(Answer("", DefaultAnswer))
  {
    assert ToLower("done") == "done";
  }
}

=== FILE: optional.dfy ===
/** The optional value used for absent object properties (`undefined` in the source). */
module Optional {

  datatype Option<+T> = None | Some(value: T) {

    /** The carried value, or `default` when absent (the `??` / spread fallback). */
    function GetOr(default: T): T {
      match this
      case Some(v) => v
      case None => default
    }
  }
}

=== FILE: pdf_command.dfy ===
/**
 * The `pdf` command: ask for a PDF file name, then chat about that file. An exit keyword or a
 * file that does not exist ends the command before the table is touched; otherwise the table
 * is emptied if it holds rows, and this file's chunks are stored, on every run.
 */
module PdfCommand {
  import opened VectorTable
  import opened PromptTemplate
  import opened ExitKeyword
  import opened ChatChain

  const TableName := "pdf_data"

  const Splitter := SplitterConfig(15000, 500, false)

  /** The template's fixed text is shortened; only its slots and their order matter here. */
  const Prompt: Template := [
    Text("You are PDF Helper GPT.\nCONTEXT:\n"), Slot("context"),
    Text("\nCHAT HISTORY: "), Slot("chatHistory"),
    Text("\nQUESTION: "), Slot("question"),
    Text("\nHELPFUL ANSWER:")]

  const Chain := Wiring("question", AnswerThenQuestion, Prompt)

  /** The file name the first line answers (an empty line answers `done`). */
  function FileName(lines: seq<string>): string
    requires |lines| > 0
  {
    Answer(lines[0], DefaultAnswer)
  }

  /** Both guards passed: a file name was given, it is not an exit keyword, and the file exists. */
  predicate PassesGuards(lines: seq<string>, fileExists: string -> bool) {
    |lines| > 0 && !IsExit(FileName(lines)) && fileExists(FileName(lines))
  }

  /**
   * `lines[0]` answers the file-name prompt and the rest answer the question prompt.
   * `fileExists` and `loadPdf` stand for the file system check and the PDF loader.
   */
  function Run(lines: seq<string>, fileExists: string -> bool, rows0: seq<Doc>,
               loadPdf: string -> seq<Doc>, b: Backend): (s: Session)
    ensures !PassesGuards(lines, fileExists) ==> s.setup == [] && s.rows == rows0 && s.calls == []
    ensures |lines| > 0 && IsExit(FileName(lines)) ==> s.stop == Declined
    ensures |lines| > 0 && !IsExit(FileName(lines)) && !fileExists(FileName(lines)) ==>
      s.stop == FileMissing(FileName(lines))
    ensures PassesGuards(lines, fileExists) ==>
      && s.rows == b.split(Splitter, loadPdf(FileName(lines)))
      && s.setup == (if DataExists(rows0) then [Cleared] else []) + [Added(s.rows)]
    ensures PassesGuards(lines, fileExists) ==> s.calls == Loop(Chain, b, s.rows, lines[1..], "", "").calls
    ensures PassesGuards(lines, fileExists) ==> s.stop == Loop(Chain, b, s.rows, lines[1..], "", "").stop
    ensures PassesGuards(lines, fileExists) ==> s.history == Loop(Chain, b, s.rows, lines[1..], "", "").history
    ensures s.rows == Apply(rows0, s.setup)
  {
    if |lines| == 0 then Session([], rows0, [], InputClosed, "")
    else
      var name := FileName(lines);
      if IsExit(name) then Session([], rows0, [], Declined, "")
      else if !fileExists(name) then Session([], rows0, [], FileMissing(name), "")
      else
        var hadRows := DataExists(rows0);
        var table := if hadRows then Clear(rows0) else rows0;
        var chunks := b.split(Splitter, loadPdf(name));
        var rows := AddDocuments(table, chunks);
        var ops := (if hadRows then [Cleared] else []) + [Added(chunks)];
        assert Apply(rows0, ops) == rows by {
          if hadRows {
            ClearThenAdd(rows0, chunks);
          } else {
            assert ops == [Added(chunks)] && ops[1..] == [];
          }
        }
        var loop := Loop(Chain, b, rows, lines[1..], "", "");
        Session(ops, rows, loop.calls, loop.stop, loop.history)
  }

  /** Ingestion happens exactly once in a run that passes the guards, and after it the table holds only this file's chunks. */
  lemma IngestsOnceThisFileOnly(lines: seq<string>, fileExists: string -> bool, rows0: seq<Doc>,
                                loadPdf: string -> seq<Doc>, b: Backend)
    requires PassesGuards(lines, fileExists)
    ensures var s := Run(lines, fileExists, rows0, loadPdf, b);
      && Ingests(s.setup)
      && s.setup[|s.setup| - 1] == Added(b.split(Splitter, loadPdf(FileName(lines))))
      && (Clears(s.setup) <==> DataExists(rows0))
  {
    var s := Run(lines, fileExists, rows0, loadPdf, b);
    var chunks := b.split(Splitter, loadPdf(FileName(lines)));
    assert s.rows == chunks;
    if DataExists(rows0) {
      assert s.setup == [Cleared, Added(chunks)];
      assert s.setup[0].Cleared? && s.setup[1].Added?;
    } else {
      assert s.setup == [Added(chunks)];
      assert s.setup[0].Added? && !s.setup[0].Cleared?;
    }
  }

  /** The template's slots are exactly the keys the chain's input map supplies. */
  lemma PromptSlotsMatchKeys()
    ensures Slots(Prompt) == SuppliedKeys(Chain) == {"context", "chatHistory", "question"}
  {
  }

  /** After the file name, an exit keyword as the first question ends the run with no call to the chain. */
  lemma ExitFirstNoCall(lines: seq<string>, fileExists: string -> bool, rows0: seq<Doc>,
                        loadPdf: string -> seq<Doc>, b: Backend)
    requires PassesGuards(lines, fileExists)
    requires |lines| > 1 && IsExit(Answer(lines[1], DefaultAnswer))
    ensures Run(lines, fileExists, rows0, loadPdf, b).calls == []
    ensures Run(lines, fileExists, rows0, loadPdf, b).stop == Exited
  {
    var s := Run(lines, fileExists, rows0, loadPdf, b);
    ExitFirstNeverInvokes(Chain, b, s.rows, lines[1..], "", "");
  }

  /** With a model that always answers, each question before the first exit keyword is sent once, in order. */
  lemma OneCallPerQuestion(lines: seq<string>, fileExists: string -> bool, rows0: seq<Doc>,
                           loadPdf: string -> seq<Doc>, b: Backend)
    requires PassesGuards(lines, fileExists)
    requires forall p :: b.llm(p).Completed?
    ensures |Run(lines, fileExists, rows0, loadPdf, b).calls| == FirstExit(lines[1..])
    ensures forall i :: 0 <= i < |Run(lines, fileExists, rows0, loadPdf, b).calls| ==>
      Run(lines, fileExists, rows0, loadPdf, b).calls[i].question == Answer(lines[i + 1], DefaultAnswer)
  {
    PromptSlotsMatchKeys();
    var s := Run(lines, fileExists, rows0, loadPdf, b);
    InvokesUntilFirstExit(Chain, b, s.rows, lines[1..], "", "");
    forall i | 0 <= i < |s.calls| ensures s.calls[i].question == Answer(lines[i + 1], DefaultAnswer) {
      assert lines[1..][i] == lines[i + 1];
    }
  }
}

=== FILE: prompt_template.dfy ===
/**
 * Prompt templates in the `{name}` placeholder format, reduced to what matters here: which
 * named slots a template references and what rendering does with the values it is given.
 * The instruction text between slots is kept as opaque literal pieces.
 */
module PromptTemplate {

  datatype Segment = Text(text: string) | Slot(name: string)

  type Template = seq<Segment>

  /** Rendering either produces the prompt or names the first slot no value was given for. */
  datatype Rendering = Rendered(text: string) | Missing(name: string)

  /** The slot names a template references. */
  function Slots(t: Template): set<string>
    decreases |t|
  {
    if |t| == 0 then {}
    else (if t[0].Slot? then {t[0].name} else {}) + Slots(t[1..])
  }

  function RenderSegment(s: Segment, values: map<string, string>): Rendering {
    match s
    case Text(text) => Rendered(text)
    case Slot(n) => if n in values then Rendered(values[n]) else Missing(n)
  }

  /** Fills every slot with its value, left to right; fails on the first slot with no value. */
  function Render(t: Template, values: map<string, string>): (r: Rendering)
    ensures r.Rendered? <==> Slots(t) <= values.Keys
    ensures r.Missing? ==> r.name in Slots(t) && r.name !in values.Keys
    decreases |t|
  {
    if |t| == 0 then Rendered("")
    else
      var head := RenderSegment(t[0], values);
      if head.Missing? then head
      else
        var rest := Render(t[1..], values);
        if rest.Missing? then rest else Rendered(head.text + rest.text)
  }

  /** A literal piece renders as itself. */
  lemma RenderText(text: string, values: map<string, string>)
    ensures Render([Text(text)], values) == Rendered(text)
  {
    assert [Text(text)][1..] == [];
  }

  /** A slot with a value renders as that value; a slot without one fails, naming it. */
  lemma RenderSlot(name: string, values: map<string, string>)
    ensures name in values ==> Render([Slot(name)], values) == Rendered(values[name])
    ensures name !in values ==> Render([Slot(name)], values) == Missing(name)
  {
    assert [Slot(name)][1..] == [];
  }

  /** A failure names the first slot with no value: every slot before it has one. */
  lemma {:induction false} RenderMissingFirst(t: Template, values: map<string, string>)
    requires Render(t, values).Missing?
    ensures exists i :: 0 <= i < |t| && t[i] == Slot(Render(t, values).name) && Slots(t[..i]) <= values.Keys
    decreases |t|
  {
    var name := Render(t, values).name;
    if RenderSegment(t[0], values).Missing? {
      assert t[0] == Slot(name);
      assert Slots(t[..0]) == {} by { assert t[..0] == []; }
    } else {
      RenderMissingFirst(t[1..], values);
      var j :| 0 <= j < |t[1..]| && t[1..][j] == Slot(name) && Slots(t[1..][..j]) <= values.Keys;
      var p := t[..j + 1];
      assert p[0] == t[0] && p[1..] == t[1..][..j];
      assert Slots(p) == (if t[0].Slot? then {t[0].name} else {}) + Slots(t[1..][..j]);
      assert t[j + 1] == Slot(name);
    }
  }

  /** A value under a key the template does not reference changes nothing in the rendering. */
  lemma {:induction false} RenderIgnoresUnusedKey(t: Template, values: map<string, string>, key: string, v: string)
    requires key !in Slots(t)
    ensures Render(t, values[key := v]) == Render(t, values)
    decreases |t|
  {
    if |t| > 0 {
      assert Slots(t) == (if t[0].Slot? then {t[0].name} else {}) + Slots(t[1..]);
      RenderIgnoresUnusedKey(t[1..], values, key, v);
    }
  }

  lemma {:induction false} SlotsAppend(a: Template, b: Template)
    ensures Slots(a + b) == Slots(a) + Slots(b)
    decreases |a|
  {
    if |a| == 0 {
      assert a + b == b;
    } else {
      assert (a + b)[1..] == a[1..] + b;
      SlotsAppend(a[1..], b);
    }
  }

  /** Rendering a concatenation of templates that both render concatenates the renderings. */
  lemma {:induction false} RenderAppend(a: Template, b: Template, values: map<string, string>)
    requires Render(a, values).Rendered? && Render(b, values).Rendered?
    ensures Render(a + b, values) == Rendered(Render(a, values).text + Render(b, values).text)
    decreases |a|
  {
    if |a| == 0 {
      assert a + b == b;
    } else {
      var ab := a + b;
      assert ab[0] == a[0] && ab[1..] == a[1..] + b;
      RenderAppend(a[1..], b, values);
    }
  }
}

=== FILE: typeorm_command.dfy ===
/**
 * The `typeorm` command: chat with the Parking Manager documentation through a prompt that
 * does have a history slot. The table is never emptied; the documentation is loaded, split
 * and stored only when the table holds no rows, in verbose mode or not.
 */
module TypeormCommand {
  import opened VectorTable
  import opened PromptTemplate
  import opened ExitKeyword
  import opened ChatChain

  const TableName := "parking_manager_data"

  const Splitter := SplitterConfig(1500, 500, false)

  /** The template's fixed text is shortened; only its slots and their order matter here. */
  const Prompt: Template := [
    Text("You are Parking Manager Helper GPT.\nCONTEXT:\n"), Slot("context"),
    Text("\nCHAT HISTORY: "), Slot("chatHistory"),
    Text("\nQUESTION: "), Slot("question"),
    Text("\nHELPFUL ANSWER:")]

  /** The question goes under `question`; `chatHistory` is computed from (previous response, question). */
  const Chain := Wiring("question", AnswerThenQuestion, Prompt)

  function Run(verbose: bool, rows0: seq<Doc>, loaded: seq<Doc>, b: Backend, lines: seq<string>): (s: Session)
    ensures !Clears(s.setup)
    ensures Ingests(s.setup) <==> !DataExists(rows0)
    ensures DataExists(rows0) ==> s.setup == [] && s.rows == rows0
    ensures !DataExists(rows0) ==> s.setup == [Added(b.split(Splitter, loaded))] && s.rows == b.split(Splitter, loaded)
    ensures s.rows == Apply(rows0, s.setup)
    ensures s.calls == Loop(Chain, b, s.rows, lines, "", "").calls
    ensures s.stop == Loop(Chain, b, s.rows, lines, "", "").stop
    ensures s.history == Loop(Chain, b, s.rows, lines, "", "").history
  {
    var chunks := b.split(Splitter, loaded);
    var ingest := !DataExists(rows0);
    var rows := if ingest then AddDocuments(rows0, chunks) else rows0;
    var ops: seq<TableOp> := if ingest then [Added(chunks)] else [];
    assert Apply(rows0, ops) == rows by {
      if ingest {
        assert ops[1..] == [];
      }
    }
    assert Ingests(ops) <==> ingest by {
      if ingest {
        assert ops[0] == Added(chunks);
      }
    }
    var loop := Loop(Chain, b, rows, lines, "", "");
    Session(ops, rows, loop.calls, loop.stop, loop.history)
  }

  /** The verbose flag changes nothing the command does to the table or the chain. */
  lemma VerboseIgnored(rows0: seq<Doc>, loaded: seq<Doc>, b: Backend, lines: seq<string>)
    ensures Run(true, rows0, loaded, b, lines) == Run(false, rows0, loaded, b, lines)
  {
  }

  /** The template's slots are exactly the keys the chain's input map supplies. */
  lemma PromptSlotsMatchKeys()
    ensures Slots(Prompt) == SuppliedKeys(Chain) == {"context", "chatHistory", "question"}
  {
  }

  /** An exit keyword as the first question ends the run with no call to the chain. */
  lemma ExitFirstNoCall(verbose: bool, rows0: seq<Doc>, loaded: seq<Doc>, b: Backend, lines: seq<string>)
    requires |lines| > 0 && IsExit(Answer(lines[0], DefaultAnswer))
    ensures Run(verbose, rows0, loaded, b, lines).calls == []
    ensures Run(verbose, rows0, loaded, b, lines).stop == Exited
  {
  }

  /** With a model that always answers, the chain is invoked once per question before the first exit keyword. */
  lemma OneCallPerQuestion(verbose: bool, rows0: seq<Doc>, loaded: seq<Doc>, b: Backend, lines: seq<string>)
    requires forall p :: b.llm(p).Completed?
    ensures |Run(verbose, rows0, loaded, b, lines).calls| == FirstExit(lines)
    ensures forall i :: 0 <= i < |Run(verbose, rows0, loaded, b, lines).calls| ==>
      Run(verbose, rows0, loaded, b, lines).calls[i].question == Answer(lines[i], DefaultAnswer)
  {
    PromptSlotsMatchKeys();
    var s := Run(verbose, rows0, loaded, b, lines);
    InvokesUntilFirstExit(Chain, b, s.rows, lines, "", "");
  }

  /**
   * `chatHistory` is recomputed each turn from (previous response, this question), the
   * reverse argument order of the `docs` command; the first previous response is empty.
   */
  lemma HistoryFromLastAnswerAndQuestion(verbose: bool, rows0: seq<Doc>, loaded: seq<Doc>, b: Backend, lines: seq<string>)
    ensures forall i :: 0 <= i < |Run(verbose, rows0, loaded, b, lines).calls| ==>
      Run(verbose, rows0, loaded, b, lines).calls[i].history ==
        b.formatChatHistory(AnswerBefore(Run(verbose, rows0, loaded, b, lines).calls, i, ""),
                            Run(verbose, rows0, loaded, b, lines).calls[i].question)
  {
    var s := Run(verbose, rows0, loaded, b, lines);
    LoopTurns(Chain, b, s.rows, lines, "", "");
    forall i | 0 <= i < |s.calls|
      ensures s.calls[i].history == b.formatChatHistory(AnswerBefore(s.calls, i, ""), s.calls[i].question)
    {
      assert IsTurn(Chain, b, s.rows, s.calls, i, "", "");
    }
  }
}

=== FILE: vector_table.dfy ===
/**
 * A vector-store table seen only through what the commands do with it: delete every row,
 * count the rows, append documents, or build a fresh index from documents.
 */
module VectorTable {

  /** A document as loaders and splitters produce it. */
  datatype Doc = Doc(pageContent: string, source: string)

  /** The text splitter's settings; the splitter itself is a parameter of the model. */
  datatype SplitterConfig = SplitterConfig(chunkSize: nat, chunkOverlap: nat, html: bool)

  /** One write a command performs on its table, in the order performed. */
  datatype TableOp = Cleared | Added(docs: seq<Doc>) | Rebuilt(docs: seq<Doc>)

  /** `clearTable`: deletes every row. */
  function Clear(rows: seq<Doc>): (r: seq<Doc>)
    ensures !DataExists(r)
  {
    []
  }

  /** `dataExistsInTable`: the row count is positive. */
  predicate DataExists(rows: seq<Doc>)
    ensures DataExists(rows) <==> rows != []
  {
    |rows| > 0
  }

  /** `addDocuments`: appends, keeping the rows already there. */
  function AddDocuments(rows: seq<Doc>, docs: seq<Doc>): (r: seq<Doc>)
    ensures |r| == |rows| + |docs| && r[..|rows|] == rows && r[|rows|..] == docs
    ensures DataExists(r) <==> DataExists(rows) || |docs| > 0
  {
    rows + docs
  }

  function ApplyOp(rows: seq<Doc>, op: TableOp): seq<Doc> {
    match op
    case Cleared => Clear(rows)
    case Added(docs) => AddDocuments(rows, docs)
    case Rebuilt(docs) => docs
  }

  /** The table after performing `ops` in order. */
  function Apply(rows: seq<Doc>, ops: seq<TableOp>): seq<Doc>
    decreases |ops|
  {
    if |ops| == 0 then rows else Apply(ApplyOp(rows, ops[0]), ops[1..])
  }

  predicate Clears(ops: seq<TableOp>) {
    exists i :: 0 <= i < |ops| && ops[i].Cleared?
  }

  predicate Ingests(ops: seq<TableOp>) {
    exists i :: 0 <= i < |ops| && (ops[i].Added? || ops[i].Rebuilt?)
  }

  /** Clearing then adding leaves exactly the added documents, whatever was there before. */
  lemma ClearThenAdd(rows: seq<Doc>, docs: seq<Doc>)
    ensures Apply(rows, [Cleared, Added(docs)]) == docs
    ensures DataExists(Apply(rows, [Cleared, Added(docs)])) <==> |docs| > 0
  {
    var ops := [Cleared, Added(docs)];
    assert ops[1..] == [Added(docs)];
    assert [Added(docs)][1..] == [];
    calc {
      Apply(rows, ops);
      Apply([], [Added(docs)]);
      Apply([] + docs, []);
    }
    assert [] + docs == docs;
  }

  /** Adding without clearing keeps every earlier row: running an ingestion twice stores the documents twice. */
  lemma AddTwiceDuplicates(rows: seq<Doc>, docs: seq<Doc>)
    ensures Apply(rows, [Added(docs), Added(docs)]) == rows + docs + docs
  {
    var ops := [Added(docs), Added(docs)];
    assert ops[1..] == [Added(docs)];
    assert [Added(docs)][1..] == [];
    calc {
      Apply(rows, ops);
      Apply(rows + docs, [Added(docs)]);
      Apply(rows + docs + docs, []);
    }
  }

  /** Rebuilding keeps nothing of the previous rows. */
  lemma RebuildReplaces(rows: seq<Doc>, docs: seq<Doc>)
    ensures Apply(rows, [Rebuilt(docs)]) == docs
  {
    assert [Rebuilt(docs)][1..] == [];
  }

  /** A single add appends to whatever was there. */
  lemma AddKeeps(rows: seq<Doc>, docs: seq<Doc>)
    ensures Apply(rows, [Added(docs)]) == rows + docs
  {
    assert [Added(docs)][1..] == [];
  }
}

=== FILE: youtube_command.dfy ===
/**
 * The `youtube` command: read a video URL, build a fresh in-memory index from its transcript,
 * ask the chain for a summary before reading any question, then chat about the video with the
 * summary as the first "previous response".
 */
module YoutubeCommand {
  import opened VectorTable
  import opened PromptTemplate
  import opened ExitKeyword
  import opened ChatChain

  /** The URL prompt's default, answered by an empty line. */
  const DefaultUrl := "https://www.youtube.com/watch?v=0lJKucu6HJc"

  /** The question the summary call asks. */
  const SummaryQuestion :=
    "Please provide a detailed summary of the video. \n  Make sure to cover all the main points, but without too much detail. \n  The user can ask follow-up questions if they need more information about specific details."

  /** The template's fixed text is shortened; only its slots and their order matter here. */
  const Prompt: Template := [
    Text("Use the following pieces of content to answer the question at the end. ...\n  CONTEXT: "), Slot("context"),
    Text("\n  ________________\n  CHAT HISTORY: "), Slot("chatHistory"),
    Text("\n  ________________\n  QUESTION: "), Slot("question"),
    Text("\n  ________________\n  HELPFUL ANSWER:")]

  const Chain := Wiring("question", AnswerThenQuestion, Prompt)

  /** The URL the first line answers. It is never compared with the exit keywords. */
  function Url(lines: seq<string>): string
    requires |lines| > 0
  {
    Answer(lines[0], DefaultUrl)
  }

  /**
   * Everything after a successful fetch: the index is built from `docs` alone, the summary is
   * asked for, and then, if it was answered, the question loop starts with it as the previous
   * response.
   */
  function Chat(docs: seq<Doc>, questions: seq<string>, b: Backend): (s: Session)
    ensures s.setup == [Rebuilt(docs)] && s.rows == docs
    ensures |s.calls| >= 1 && s.calls[0].question == SummaryQuestion && s.calls[0].history == ""
    ensures s.calls[0] == Invoke(Chain, b, docs, SummaryQuestion, "")
    ensures s.calls[0].outcome.Answered? ==>
      var loop := Loop(Chain, b, docs, questions, s.calls[0].outcome.text, "");
      s.calls[1..] == loop.calls && s.stop == loop.stop
    ensures s.calls[0].outcome.Raised? ==> |s.calls| == 1 && s.stop == Crashed(s.calls[0].outcome.error)
    ensures s.stop.Exited? || s.stop.InputClosed? || s.stop.Crashed?
  {
    var summary := Invoke(Chain, b, docs, SummaryQuestion, "");
    match summary.outcome
    case Raised(e) => Session([Rebuilt(docs)], docs, [summary], Crashed(e), "")
    case Answered(a) =>
      var loop := Loop(Chain, b, docs, questions, a, "");
      Session([Rebuilt(docs)], docs, [summary] + loop.calls, loop.stop, loop.history)
  }

  /**
   * `lines[0]` answers the URL prompt and the rest answer the question prompt. `fetch` stands
   * for the transcript loader (fetch and split); its failure is not caught. `rows0` is whatever
   * index existed before: the command never reads it.
   */
  function Run(lines: seq<string>, rows0: seq<Doc>, fetch: string -> Fetch, b: Backend): (s: Session)
    ensures |lines| == 0 ==> s.setup == [] && s.calls == [] && s.stop == InputClosed
    ensures |lines| > 0 ==> (s.setup == [] <==> fetch(Url(lines)).FetchError?)
    ensures |lines| > 0 && fetch(Url(lines)).FetchError? ==>
      s.calls == [] && s.stop == LoaderCrashed(fetch(Url(lines)).reason)
    ensures |lines| > 0 && fetch(Url(lines)).Fetched? ==> s == Chat(fetch(Url(lines)).docs, lines[1..], b)
    ensures s.rows == Apply(rows0, s.setup)
  {
    if |lines| == 0 then Session([], rows0, [], InputClosed, "")
    else
      match fetch(Url(lines))
      case FetchError(reason) => Session([], rows0, [], LoaderCrashed(reason), "")
      case Fetched(docs) =>
        var s := Chat(docs, lines[1..], b);
        RebuildReplaces(rows0, docs);
        s
  }

  /** The template's slots are exactly the keys the chain's input map supplies. */
  lemma PromptSlotsMatchKeys()
    ensures Slots(Prompt) == SuppliedKeys(Chain) == {"context", "chatHistory", "question"}
  {
  }

  /** An exit keyword as the first question still comes after the summary: the run makes exactly that one call. */
  lemma SummaryEvenWhenExitingAtOnce(lines: seq<string>, rows0: seq<Doc>, fetch: string -> Fetch, b: Backend)
    requires |lines| > 1 && fetch(Url(lines)).Fetched?
    requires IsExit(Answer(lines[1], DefaultAnswer))
    ensures |Run(lines, rows0, fetch, b).calls| == 1
    ensures Run(lines, rows0, fetch, b).calls[0].question == SummaryQuestion
  {
    var s := Run(lines, rows0, fetch, b);
    var docs := fetch(Url(lines)).docs;
    assert s == Chat(docs, lines[1..], b);
    if s.calls[0].outcome.Answered? {
      ExitFirstNeverInvokes(Chain, b, docs, lines[1..], s.calls[0].outcome.text, "");
    }
  }

  /** The first follow-up question's history is formatted from the summary and that question. */
  lemma FirstFollowUpSeesSummary(lines: seq<string>, rows0: seq<Doc>, fetch: string -> Fetch, b: Backend)
    requires |lines| > 0 && fetch(Url(lines)).Fetched?
    requires Run(lines, rows0, fetch, b).calls[0].outcome.Answered?
    requires |Run(lines, rows0, fetch, b).calls| > 1
    ensures Run(lines, rows0, fetch, b).calls[1].question == Answer(lines[1], DefaultAnswer)
    ensures Run(lines, rows0, fetch, b).calls[1].history ==
      b.formatChatHistory(Run(lines, rows0, fetch, b).calls[0].outcome.text, Answer(lines[1], DefaultAnswer))
  {
    var s := Run(lines, rows0, fetch, b);
    var docs := fetch(Url(lines)).docs;
    assert s == Chat(docs, lines[1..], b);
    var a := s.calls[0].outcome.text;
    var loop := Loop(Chain, b, docs, lines[1..], a, "");
    assert s.calls[1] == loop.calls[0];
    LoopTurns(Chain, b, docs, lines[1..], a, "");
    assert IsTurn(Chain, b, docs, loop.calls, 0, a, "");
  }

  /** With a model that always answers: the summary, then one call per question before the first exit keyword. */
  lemma OneCallPerQuestion(lines: seq<string>, rows0: seq<Doc>, fetch: string -> Fetch, b: Backend)
    requires |lines| > 0 && fetch(Url(lines)).Fetched?
    requires forall p :: b.llm(p).Completed?
    ensures |Run(lines, rows0, fetch, b).calls| == 1 + FirstExit(lines[1..])
    ensures forall i :: 1 <= i < |Run(lines, rows0, fetch, b).calls| ==>
      Run(lines, rows0, fetch, b).calls[i].question == Answer(lines[i], DefaultAnswer)
  {
    PromptSlotsMatchKeys();
    var s := Run(lines, rows0, fetch, b);
    var docs := fetch(Url(lines)).docs;
    assert s == Chat(docs, lines[1..], b);
    assert s.calls[0].outcome.Answered? by {
      var values := PromptValues(Chain, SummaryQuestion, "", b.serializeDocs(b.retrieve(docs, SummaryQuestion)));
      assert Render(Prompt, values).Rendered?;
      assert b.llm(Render(Prompt, values).text).Completed?;
    }
    var a := s.calls[0].outcome.text;
    var loop := Loop(Chain, b, docs, lines[1..], a, "");
    InvokesUntilFirstExit(Chain, b, docs, lines[1..], a, "");
    assert s.calls[1..] == loop.calls;
    forall i | 1 <= i < |s.calls| ensures s.calls[i].question == Answer(lines[i], DefaultAnswer) {
      assert s.calls[i] == loop.calls[i - 1];
      assert lines[1..][i - 1] == lines[i];
    }
  }
}
